=== FILE: README.md ===
# HV-chip protocol engine and `pmt` command path of the scintillator readout

This project models, in Dafny, how the scintillator readout talks to the
high-voltage (HV) supply chip of a photomultiplier, and proves properties of
that model.

There are two command paths.

**The framed binary protocol.** This is `HighVoltageChip` in
`utils/not-needed/ice_scint_code.py`.
- A request is one frame: `STX | CMD (3 ASCII letters) | DATA | ETX | CHK | CR`.
  - DATA is a list of 16-bit words, each written as four lowercase hex digits.
  - CHK is the byte sum of STX..ETX modulo 256, written as two uppercase hex digits.
- A three-state recogniser reads the reply byte by byte until it has seen STX, then ETX, then CR.
- The decoder then checks:
  - the delimiters;
  - the frame length against the fixed command catalog;
  - the checksum.
- The DATA is split into hex words.
- An `hxx` echo carries a device error code, 1 to 7.
- The operations on top are single exchanges (`HGV`, `HGC`, `HGT`, `HGS`, `HON`/`HOF`, `HCM`, `HRE`, `HBV`, `HPO`) and three read-then-write operations:
  - The temperature correction reads HRT, then sends six HST words, keeping the reference voltage it read.
  - The two power-function toggles read the power-function word, then send an HSC code that changes one field and keeps the other.
- These three operations are modelled as CORRECTED, not as written (see "## Findings"):
  - As written, the Tb range check of `setTemperatureCorrectionFactor` refuses every Tb, so HST is never sent. The model uses the check with its bounds in the intended order.
  - As written, `setOverCurrentProtection` calls `readPowerFunction` (`ice_scint_code.py:332`), which queries HSC and always ends in an IndexError. The model reads HRC instead.
  - As written, the second `setOutputVoltageControlFunction` (393-395) replaces the first and raises NameError. The model follows the first definition (362-391).
  - The as-written behaviours are modelled too, each by its own member named in the Findings table.

**The ASCII `pmt` path.** Commands such as `pmt HPO\r`, `pmt HBV<hex>\r` and `status\r` go to the microcontroller. It replies with a stream of bytes, and the words sit at bytes 99 .. len-9 as four-character hex groups. Three files carry this logic in near-identical copies:
- `utils/scintillator.py`: class `Scintillator`. Its `getStatus` falls back to -1 when the reply does not carry exactly five words.
- `scint_commands.py`: class `scintillator`. Its `getStatus` asserts five words.
- `utils/not-needed/scint_commands_2.py`: `getHPO` and `commandHandler`. Its `bytes_to_string` decodes UTF-8 rather than ASCII.

Shared logic is defined once and cited for each copy. The shared pieces are the status-bit decode, the 4-byte grouping, the slice parse and `set_HV`.

## Layout

| file | module | contents |
|---|---|---|
| wrappers.dfy | `Wrappers` | `Option`, `Result` |
| bytes.dfy | `Bytes` | bytes, STX/ETX/CR, byte sum, ASCII conversions, `str.lower` |
| hex.dfy | `Hex` | `"{0:04x}"`, `"{0:02x}".upper()`, `hex(n)[2:]`, `int(s, 16)` and their round trips |
| chunks.dfy | `Chunks` | the `[s[i:i+4] for i in range(0, len(s), 4)]` grouping |
| catalog.dfy | `Catalog`, `Errors` | `_dataSizes`, `_commandResponseSize`, `_errorCodes`, the error taxonomy |
| frame.dfy | `FrameCodec` | encoder, recogniser, decoder |
| units.dfy | `Units` | raw word ↔ physical unit conversions, range checks |
| status.dfy | `StatusBits` | the 8-bit status decode |
| power.dfy | `PowerFunction` | the power-function table and the toggle codes |
| session.dfy | `Session` | each chip operation as a function of the bytes the chip will send: frames written, bytes left, outcome |
| chip.dfy | `HighVoltage` | class `HighVoltageChip`, whose methods are proved to do exactly what `Session` says |
| utf8.dfy | `Utf8` | strict UTF-8 decoding |
| scintillator.dfy | `Scintillator` | the `pmt` path: slice parse, status dictionary, `set_HV`, `commandHandler`, class `Scintillator` |

The serial port of the chip class has two fields:
- `input`: the bytes the chip has yet to deliver.
- `written`: the log of frames written so far.

The `Scintillator` class has two fields:
- `written`: the bytes written so far.
- `windows`: what the microcontroller sends back in the one-second window after each command.

Python exceptions are `Failure` values of `Result`. For example, `ValueError` from a range check is `ValidationError` / `VoltageOutOfRange`, and the `KeyError` of an unknown echo is `UnknownCommand`.

Three behaviours of the code that are easy to miss:

- `setTemperatureCorrectionFactor` reads HRT (`ice_scint_code.py:182`) before any range check (189-202). This holds for the written and the corrected check alike.
  - A refused parameter therefore still costs one HRT exchange (`Session.TemperatureCorrectionRefused`).
  - Validation guards only the HST send.
- When the field to keep cannot be read, the two toggles return a set literal (`ice_scint_code.py:359-360`, `390-391`). They raise nothing.
  - The model returns `Success(StatusUnavailable)`, after the read and without sending HSC (`Session.PowerFunctionUnreadable`).
- The chip acknowledges HST with a reply whose catalog size is 24 bytes, i.e. six words (`ice_scint_code.py:26`). The lemmas about HST therefore take the six words of that reply as a parameter.

## Model

| member | source | states |
|---|---|---|
| Bytes.SumAppend | utils/not-needed/ice_scint_code.py:96 | the byte sum of a concatenation is the sum of the byte sums |
| Bytes.AsciiBytes | utils/not-needed/ice_scint_code.py:94 | encoding ASCII text gives one byte per character, all below 128, which decode back to the text |
| Bytes.AsciiBytesCons | utils/scintillator.py:26-27 | encoding a character then the rest of the text, as the character loop does, is the character's byte followed by the rest's bytes |
| Bytes.Lower | utils/not-needed/ice_scint_code.py:123 | lowercasing moves exactly the letters A-Z up by 32 and leaves every other character unchanged |
| Hex.DigitValue | utils/not-needed/ice_scint_code.py:71 | a hex digit is never STX, ETX or CR and is ASCII |
| Hex.HexDigits | utils/scintillator.py:114 | `hex(n)[2:]` is a non-empty run of lowercase hex digits `0-9a-f` with no leading zero unless n is 0 |
| Hex.ValueOfHexDigits | utils/scintillator.py:114 | the hex spelling of n reads back as n |
| Hex.HexDigitsLength | scint_commands.py:101 | the unpadded spelling fits in w digits exactly when n < 16^w |
| Hex.PaddedRoundTrip | utils/not-needed/ice_scint_code.py:76 | zero-padding a spelling keeps its value and never puts a sign first |
| Hex.IntToBytesRoundTrip | utils/not-needed/ice_scint_code.py:75-76 | `int(("{0:04x}".format(v)), 16) == v` for every integer, negative ones included |
| Hex.IntToBytes | utils/not-needed/ice_scint_code.py:75-76 | `"{0:04x}"` is at least four bytes; all lowercase hex digits for v >= 0; a minus sign followed by lowercase hex digits for v < 0 |
| Hex.IntToBytesLength | utils/not-needed/ice_scint_code.py:75-76 | the text is at least four bytes; exactly four iff -0xFFF <= v <= 0xFFFF; four lowercase hex digits for 0..0xFFFF |
| Hex.ParseInt | utils/not-needed/ice_scint_code.py:71 | a parsed text is non-empty, and its value is non-negative unless it starts with a minus sign |
| Hex.ParseIntAccepts | utils/not-needed/ice_scint_code.py:71 | `int(s, 16)` succeeds exactly on hex digits, optionally after one sign |
| Hex.ChecksumRoundTrip | utils/not-needed/ice_scint_code.py:96 | the checksum text (`Hex.ChecksumText`, `"{0:02x}".upper()`) is two uppercase hex digits that read back as the checksum |
| Chunks.Separate | utils/scintillator.py:157-159 | the grouping has ceil(len/4) groups |
| Chunks.FlattenSeparate | scint_commands.py:22-25 | joining the groups restores the input |
| Chunks.SeparateShape | utils/scintillator.py:157-159 | every group is 1..4 long, every group but the last is 4 long, group i is s[4i..4i+4] clamped |
| Chunks.SeparateFlatten | utils/not-needed/scint_commands_2.py:12-14 | grouping a concatenation of 4-element words gives the words back |
| Chunks.SeparateWhole | utils/not-needed/ice_scint_code.py:67-72 | input of a length divisible by 4 splits into full words only |
| Catalog.CommandResponseSize | utils/not-needed/ice_scint_code.py:62-64 | defined exactly for catalog commands (`KeyError` otherwise); 8 plus the data size, a multiple of 4 |
| Catalog.CatalogShape | utils/not-needed/ice_scint_code.py:23-39 | every catalog command is three lowercase letters with a whole number of words of at most 24 bytes |
| Errors.ErrorResponse | utils/not-needed/ice_scint_code.py:13-19 | codes 1..7 give the device error with the fixed message of the table; any other code is the `KeyError` of the lookup |
| Errors.TimeoutErrorMessage | utils/not-needed/ice_scint_code.py:40-48 | code 2 is "Timeout Error" |
| FrameCodec.PayloadBytes | utils/not-needed/ice_scint_code.py:84-92 | raw bytes pass through; non-ASCII text and unsupported payloads fail |
| FrameCodec.Encode | utils/not-needed/ice_scint_code.py:84-97 | the frame exists iff the command and payload are ASCII-encodable, and is STX, command, data, ETX, checksum, CR |
| FrameCodec.FrameLayout | utils/not-needed/ice_scint_code.py:95-97 | in an encoded frame, STX is first, CR last, ETX fourth from last, and the checksum text reads back as the byte sum mod 256 |
| FrameCodec.FrameLength | utils/not-needed/ice_scint_code.py:102-114 | the recogniser reads at least one byte and never more than are available |
| FrameCodec.ScanSkips | utils/not-needed/ice_scint_code.py:105-114 | bytes that leave the recogniser state alone are read and kept |
| FrameCodec.RecogniseFrame | utils/not-needed/ice_scint_code.py:102-114 | on an encoded frame followed by anything, the recogniser stops exactly at the frame's CR |
| FrameCodec.LeadingNoiseKept | utils/not-needed/ice_scint_code.py:102-114 | bytes before the first STX are read into the response |
| FrameCodec.StopsAtFirstTerminator | utils/not-needed/ice_scint_code.py:102-114 | on any stream, the recogniser stops at the first CR after the first ETX after the first STX, whatever follows |
| FrameCodec.DecodeHeader | utils/not-needed/ice_scint_code.py:115-131 | an accepted frame has the delimiters in place and a matching checksum; its command is bytes 1..3 lowercased, in the catalog; its length is the catalog length; its DATA is bytes 4..len-4 |
| FrameCodec.DecodeHeaderAccepts | utils/not-needed/ice_scint_code.py:115-131 | the header is accepted iff all those checks pass; each failed check gives its own error, in the order the source makes them: the IndexError of `response[0]` or `response[-4]`, "Frame bytes did not match", a non-ASCII command, the `KeyError` of an unknown command, the size mismatch, an unreadable checksum text, and the checksum mismatch with the received and the calculated value |
| FrameCodec.HexWords | utils/not-needed/ice_scint_code.py:67-72 | succeeds iff every 4-byte group parses; then word i is the value of group i; a group that is not hex fails the whole read |
| FrameCodec.Decode | utils/not-needed/ice_scint_code.py:115-134 | a decoded reply's command is bytes 1..3 of the frame lowercased, in the catalog; its words are `HexWords` of the frame's DATA bytes, the catalog word count; the length and checksum match |
| FrameCodec.DecodeAccepts | utils/not-needed/ice_scint_code.py:115-134 | a frame decodes iff its header is accepted and its DATA parses as hex words |
| FrameCodec.HexWordsRoundTrip | utils/not-needed/ice_scint_code.py:67-76 | words in -0xFFF..0xFFFF written with `_intToBytes` read back with `_dataToHex` |
| FrameCodec.DecodeEncode | utils/not-needed/ice_scint_code.py:84-132 | decoding the frame sent for (cmd, words) gives (cmd.lower(), words) |
| FrameCodec.ReadEncodedFrame | utils/not-needed/ice_scint_code.py:102-132 | on a stream that starts with an encoded frame, exactly that frame is read and decoded |
| FrameCodec.HexDigitsInWords | utils/not-needed/ice_scint_code.py:75-76 | every data byte of words in 0..0xFFFF is a lowercase hex digit |
| FrameCodec.NoisyFrameRejected | utils/not-needed/ice_scint_code.py:102-120 | noise before STX is read with the frame, which is then rejected as "Frame bytes did not match" |
| Units.Trunc | utils/not-needed/ice_scint_code.py:182 | `int(x)` truncates toward zero |
| Units.ConversionsRoundTrip | utils/not-needed/ice_scint_code.py:166-171 | each conversion, divided back and truncated, gives the raw word; the two temperature functions (`Units.ToTemperature` and `Units.FromTemperature`, lines 54-60) are inverse |
| Units.TemperatureDecreasing | utils/not-needed/ice_scint_code.py:55-56 | the temperature function (`Units.ToTemperature`) falls as the raw word grows |
| Units.ReferenceVoltageWord | utils/not-needed/ice_scint_code.py:274-278 | accepted iff 0 <= voltage <= 0xFFFF * factor; the word is in 0..0xFFFF and the largest whose voltage does not exceed the request |
| Units.AsWrittenRejectsEveryTb | utils/not-needed/ice_scint_code.py:186-202 | the range check as written refuses every Tb |
| Units.CorrectionWordsAsWritten | utils/not-needed/ice_scint_code.py:186-211 | the words as written exist iff the slopes and offsets are in range and tb_min <= Tb <= tb_max; they are then the same six words as the corrected ones |
| Units.CorrectionWords | utils/not-needed/ice_scint_code.py:181-211 | accepted iff every parameter is in range; six words in HST order, the reference voltage fifth, each word within its encodable range |
| Units.CorrectionWordsTrackParameters | utils/not-needed/ice_scint_code.py:204-208 | each accepted word is the truncated conversion of its own parameter: it converts back to at most the parameter, and the next word to more (for Tb, which falls, the other way round) |
| Units.CorrectedAcceptsRoomTemperature | utils/not-needed/ice_scint_code.py:186-202 | the corrected check admits Tb = 25 |
| StatusBits.HVStatus | utils/scintillator.py:40-55 | each flag is the stated bit of the status: bits 0 and 1 set, bits 2, 3, 4 and 6 clear |
| StatusBits.DecodeStatusByte | utils/scintillator.py:40-55 | decoding the byte built from any six flags gives those flags back |
| StatusBits.EncodeStatusFlags | scint_commands.py:48-63 | bit k of the re-encoded flags equals bit k of the status for every used bit; bits 5 and 7 are dropped |
| StatusBits.UnusedBitsIgnored | utils/scintillator.py:42-47 | two status values that differ only in bit 5 or 7 decode alike |
| StatusBits.StatusExamples | utils/not-needed/scint_commands_2.py:20-34 | 0 reads as HV off with every active-low flag good; 1 reads as HV on |
| StatusBits.SetBitKeepsOthers | utils/scintillator.py:42-47 | setting a clear bit changes no other bit |
| PowerFunction.DecodePowerFunction | utils/not-needed/ice_scint_code.py:310-329 | 0..3 decode to two fields, bit 0 the over-current protection and bit 1 the voltage control; anything else is the error value in both |
| PowerFunction.OverCurrentProtectionCode | utils/not-needed/ice_scint_code.py:331-360 | a code exists iff the voltage-control field was read; it decodes to the requested protection with voltage control unchanged |
| PowerFunction.OutputVoltageControlCode | utils/not-needed/ice_scint_code.py:362-391 | a code exists iff the protection field was read; it decodes to the requested control with protection unchanged |
| PowerFunction.ToggleKeepsOtherField | utils/not-needed/ice_scint_code.py:331-391 | from every readable word, each toggle keeps the field it does not own |
| PowerFunction.ToggleToCurrentIsIdentity | utils/not-needed/ice_scint_code.py:331-391 | requesting the current value sends back the word that was read |
| Session.CheckReply | utils/not-needed/ice_scint_code.py:139-141 | success iff the echo is the expected lowercase command; `hxx` raises the device error of its first word; any other echo fails the assertion |
| Session.Transaction | utils/not-needed/ice_scint_code.py:136-141 | an unencodable request writes nothing; otherwise exactly one frame, and a successful reply carries the catalog word count |
| Session.TransactionAnswered | utils/not-needed/ice_scint_code.py:136-142 | against a chip echoing the request, the exchange returns the chip's words and consumes exactly that frame |
| Session.TransactionRefused | utils/not-needed/ice_scint_code.py:139-140 | against a chip answering `hxx` with code c, the exchange fails with the error for c |
| Session.Receive | utils/not-needed/ice_scint_code.py:102-134 | reads exactly as many bytes as the recogniser does, and leaves the rest; with no complete frame the read fails |
| Session.ReceiveStops | utils/not-needed/ice_scint_code.py:102-134 | when the recogniser stops after a response, that response is decoded and the bytes after it are left |
| Session.ReadPowerFunctionAsWritten | utils/not-needed/ice_scint_code.py:304-310 | the read as written sends one HSC frame with no data |
| Session.ReadPowerFunctionAsWrittenFails | utils/not-needed/ice_scint_code.py:304-310 | the read as written (HSC) fails on every input |
| Session.AcknowledgedHscHasNoStatusWord | utils/not-needed/ice_scint_code.py:305-310 | a well-formed `hsc` reply ends in the IndexError of `data[0]` |
| Session.ReadPowerFunctionSpec | utils/not-needed/ice_scint_code.py:304-306 | the corrected read sends one HRC frame |
| Session.ReadPowerFunctionAnswered | utils/not-needed/ice_scint_code.py:304-329 | a chip reporting word st is read as the power-function table says |
| Session.ReferenceVoltageValidatedFirst | utils/not-needed/ice_scint_code.py:274-283 | an out-of-range voltage writes nothing; an accepted one writes one 12-byte HBV frame whose data reads back as the converted word |
| Session.CorrectionFactorsRead | utils/not-needed/ice_scint_code.py:160-179 | the reading is the six words converted in order, and, in exact real arithmetic, the reference voltage converts back to the word the chip sent (IEEE doubles can give one less; see "## Left out") |
| Session.TemperatureCorrectionRefused | utils/not-needed/ice_scint_code.py:181-202 | out-of-range factors fail after the HRT read, with nothing else sent |
| Session.TemperatureCorrectionSent | utils/not-needed/ice_scint_code.py:181-215 | with the corrected Tb check (first Findings row), in-range factors send HRT then one HST frame whose fifth word is the reference voltage word read from the chip, in exact real arithmetic (IEEE doubles can give one less; see "## Left out") |
| Session.PowerFunctionUnreadable | utils/not-needed/ice_scint_code.py:331-391 | when the word read is outside 0..3, both toggles send only the read and return without switching |
| Session.PowerFunctionSwitched | utils/not-needed/ice_scint_code.py:331-391 | with the corrected read (HRC, second Findings row) and the first `setOutputVoltageControlFunction` (third row): when the word read is 0..3, both toggles send one HSC frame after the read whose code sets the requested field and keeps the other |
| Session.GetStatusReadsFlags | utils/not-needed/ice_scint_code.py:217-237 | `getStatus` returns the flags of the status byte the chip reports |
| Session.OutputVoltageTimeout | utils/not-needed/ice_scint_code.py:136-142 | a chip answering HGV with error 2 makes the read fail with "Timeout Error" |
| Session.SetOutputVoltageControlFunctionAsWritten | utils/not-needed/ice_scint_code.py:393-395 | the definition Python keeps writes nothing, reads nothing and fails |
| Session.OutputVoltageControlAsWrittenNeverSwitches | utils/not-needed/ice_scint_code.py:393-423 | the definition Python keeps writes nothing and fails with NameError where the first definition switches the field |
| HighVoltage.DataToHex | utils/not-needed/ice_scint_code.py:66-72 | the loop returns exactly the words of `FrameCodec.HexWords` |
| HighVoltage.HighVoltageChip.constructor | utils/not-needed/ice_scint_code.py:78-79 | the port starts with the device's bytes and nothing written |
| HighVoltage.HighVoltageChip.SendCommand | utils/not-needed/ice_scint_code.py:84-99 | appends exactly the encoded frame to the written log, or nothing when encoding fails; the input is untouched |
| HighVoltage.HighVoltageChip.GetResponse | utils/not-needed/ice_scint_code.py:102-134 | the byte loop consumes exactly what the recogniser reads and returns its decoding |
| HighVoltage.HighVoltageChip.Query | utils/not-needed/ice_scint_code.py:136-141 | send, read and echo check as `Session.Transaction` states |
| HighVoltage.HighVoltageChip.GetOutputVoltage | utils/not-needed/ice_scint_code.py:136-142 | does `Session.GetOutputVoltageSpec` |
| HighVoltage.HighVoltageChip.GetOutputCurrent | utils/not-needed/ice_scint_code.py:144-150 | does `Session.GetOutputCurrentSpec` |
| HighVoltage.HighVoltageChip.GetTemperature | utils/not-needed/ice_scint_code.py:152-158 | does `Session.GetTemperatureSpec` |
| HighVoltage.HighVoltageChip.GetTemperatureCorrectionFactor | utils/not-needed/ice_scint_code.py:160-179 | does `Session.GetTemperatureCorrectionFactorSpec` |
| HighVoltage.HighVoltageChip.SetTemperatureCorrectionFactor | utils/not-needed/ice_scint_code.py:181-215 | does `Session.SetTemperatureCorrectionFactorSpec`, the corrected program (first Findings row): the HRT read, then validation, then HST |
| HighVoltage.HighVoltageChip.GetStatus | utils/not-needed/ice_scint_code.py:217-237 | does `Session.GetStatusSpec` |
| HighVoltage.HighVoltageChip.SetHighVoltageOutput | utils/not-needed/ice_scint_code.py:239-251 | does `Session.SetHighVoltageOutputSpec` (HON or HOF) |
| HighVoltage.HighVoltageChip.SetTemperatureCompensationMode | utils/not-needed/ice_scint_code.py:253-265 | does `Session.SetTemperatureCompensationModeSpec` (HCM with `1` or `0`) |
| HighVoltage.HighVoltageChip.ResetPowersupply | utils/not-needed/ice_scint_code.py:267-272 | does `Session.ResetPowersupplySpec` |
| HighVoltage.HighVoltageChip.SetReferenceVoltage | utils/not-needed/ice_scint_code.py:274-283 | does `Session.SetReferenceVoltageSpec`: nothing is written for a voltage out of range |
| HighVoltage.HighVoltageChip.GetMonitoringInfo | utils/not-needed/ice_scint_code.py:285-302 | does `Session.GetMonitoringInfoSpec` |
| HighVoltage.HighVoltageChip.ReadPowerFunction | utils/not-needed/ice_scint_code.py:304-329 | does `Session.ReadPowerFunctionSpec` (HRC) |
| HighVoltage.HighVoltageChip.SetOverCurrentProtection | utils/not-needed/ice_scint_code.py:331-360 | does `Session.SetOverCurrentProtectionSpec`, the corrected program that reads HRC (second Findings row) |
| HighVoltage.HighVoltageChip.SetOutputVoltageControlFunction | utils/not-needed/ice_scint_code.py:362-391 | does `Session.SetOutputVoltageControlFunctionSpec`, the first definition with the corrected read (second and third Findings rows) |
| Utf8.FirstChar | utils/not-needed/scint_commands_2.py:6 | a UTF-8 sequence is 1..4 bytes long, one byte exactly for the ASCII range |
| Utf8.Decode | utils/not-needed/scint_commands_2.py:4-10 | a decoded string has at most as many characters as there are bytes, and starts with the character the first sequence encodes |
| Utf8.DecodeEncode | utils/not-needed/scint_commands_2.py:4-10 | every string encoded as UTF-8 decodes back to itself |
| Utf8.EncodeFirstChar | utils/not-needed/scint_commands_2.py:6 | the character a well-formed sequence decodes to is encoded by exactly that sequence, so no overlong form is accepted |
| Utf8.EncodeDecode | utils/not-needed/scint_commands_2.py:4-10 | whatever the decoder accepts is the UTF-8 encoding of the string it returns |
| Utf8.DecodeExactlyEncodings | utils/not-needed/scint_commands_2.py:4-10 | the decode returns t iff the bytes are the UTF-8 encoding of t; on every other byte string `bytes_to_string` gives None |
| Utf8.MalformedRejected | utils/not-needed/scint_commands_2.py:6-10 | overlong forms, surrogates, values above U+10FFFF, the byte FF, a truncated sequence and a stray continuation byte all give None |
| Utf8.DecodeAscii | utils/not-needed/scint_commands_2.py:4-10 | on ASCII bytes the UTF-8 decode is the ASCII decode |
| Scintillator.GroupWord | utils/scintillator.py:62 | a group reads as `int(_, 16)`; non-ASCII and non-hex groups raise distinct errors |
| Scintillator.ParseGroups | utils/scintillator.py:62 | succeeds iff every group is hex, with one word per group in order |
| Scintillator.HpoWords | utils/scintillator.py:59-62 | a reply of at most 107 bytes gives no words; otherwise one word per 4-byte group of the slice, word i the value of group i |
| Scintillator.HpoWordsRoundTrip | utils/scintillator.py:59-62 | words written as hex between a 99-byte preamble and an 8-byte trailer read back exactly |
| Scintillator.HpoWordsReadOnlySlice | utils/scintillator.py:60 | only bytes 99..len-9 of the reply matter |
| Scintillator.StrictHpo | utils/not-needed/scint_commands_2.py:36-45 | succeeds iff the slice parses into exactly five words; otherwise the parse error or the failed assertion |
| Scintillator.StrictHpoReadsWords | utils/not-needed/scint_commands_2.py:36-52 | a reply carrying five words is read as those words converted |
| Scintillator.FlagEntries | utils/scintillator.py:48-55 | the six flag keys in the source's order |
| Scintillator.StatusEntries | utils/scintillator.py:57-87 | succeeds iff the slice parses; twelve keys in the source's order, the channel first and the port second |
| Scintillator.StatusEntriesAgreeWithStrict | utils/scintillator.py:57-87 | twelve keys in order; the same parse errors as the strict variant; five words give the converted values; otherwise every entry but channel and port is -1 |
| Scintillator.BytesToString | utils/scintillator.py:149-155 | text iff every byte is ASCII, and it encodes back to the bytes |
| Scintillator.DecodersAgreeOnAscii | utils/not-needed/scint_commands_2.py:4-10 | the UTF-8 decoder agrees with the ASCII one wherever that succeeds, and also accepts `C3 A9` |
| Scintillator.Slice | utils/scintillator.py:122 | Python slicing clamps at the end of the reply |
| Scintillator.McStatus | utils/scintillator.py:119-122 | succeeds iff both fields are ASCII, and then returns `Microcontroller Status: `, the text of bytes 8..16, `, ` and the text of bytes 19..26; otherwise the TypeError of adding None |
| Scintillator.McStatusFields | utils/scintillator.py:119-122 | the status text splits back into the fixed prefix, the first field, `, ` and the second field, each field encoding back to the reply bytes it came from |
| Scintillator.SetHVCommand | utils/scintillator.py:109-115 | accepted iff 40 <= voltage <= 60; otherwise the ValueError |
| Scintillator.SetHVCommandShape | utils/scintillator.py:113-115 | the command is `pmt HBV`, four lowercase hex digits and CR; the digits read back as the largest raw word not above the voltage, in 22075..33112 |
| Scintillator.CommandHandler | utils/not-needed/scint_commands_2.py:54-64 | HPO delegates to `getHPO`; HON, HOF and any `pmt HBV` command give their messages; `status\r` succeeds iff both fields (bytes 8..16 and 19..26) decode as UTF-8 and then gives the two texts joined by `, `, otherwise the TypeError of adding None; an unmatched command gives None |
| Scintillator.SetHVCommandHandled | utils/not-needed/scint_commands_2.py:63-64 | every command `set_HV` builds is acknowledged as "High Voltage Set!" |
| Scintillator.DecimalText | utils/scintillator.py:18 | `str(n)` is a decimal numeral without leading zeros, after a minus sign for negative n, that reads back as n |
| Scintillator.DefaultPort | utils/scintillator.py:17-19 | the path is the by-id prefix, then `str(scint_number - 1)`, which reads back as scint_number - 1, then `-port0` |
| Scintillator.SentBytes | utils/scintillator.py:26-27 | the bytes written are the ASCII prefix up to the first character that cannot be encoded |
| Scintillator.SentBytesStopAt | utils/scintillator.py:26-27 | writing stops at the first non-ASCII character |
| Scintillator.Scintillator.constructor | utils/scintillator.py:13-20 | the given port, or the by-id default when none is given |
| Scintillator.Scintillator.SendCommand | utils/scintillator.py:24-38 | writes the command character by character; on success returns the next reply window, on a non-ASCII character stops after the prefix |
| Scintillator.Scintillator.GetStatus | utils/scintillator.py:57-87 | writes `pmt HPO\r` and returns `Scintillator.StatusEntries` of the reply |
| Scintillator.Scintillator.MarkUnavailable | utils/scintillator.py:71-73 | the loop sets every flag entry to -1 and keeps the keys |
| Scintillator.Scintillator.GetStatusStrict | scint_commands.py:65-83 | writes `pmt HPO\r` and returns `Scintillator.StrictHpo` of the reply |
| Scintillator.Scintillator.HVOn | utils/scintillator.py:97-101 | writes `pmt HON\r`, returns "High Voltage On!" |
| Scintillator.Scintillator.HVOff | utils/scintillator.py:103-107 | writes `pmt HOF\r`, returns "High Voltage Off!" |
| Scintillator.Scintillator.SetHV | utils/scintillator.py:109-117 | writes nothing for a voltage out of range; otherwise writes the `SetHVCommand` text |
| Scintillator.Scintillator.GetMcStatus | utils/scintillator.py:119-122 | writes `status\r` and returns `Scintillator.McStatus` of the reply |
| Scintillator.Scintillator.CustomCommand | utils/scintillator.py:133-137 | writes the command and CR; returns the whole reply as ASCII text or None |

## Left out

- Serial I/O and timing: opening the port, `time.sleep`, the one-second polling loop and the debug `print`s are not modelled.
  - The chip's port is the sequence of bytes it will deliver.
  - The microcontroller's port is a queue of reply windows, one per command.
- HighVoltage.HighVoltageChip.GetResponse: a read on an exhausted stream returns `NoFrame`. The source blocks forever there.
- Units.ConversionsRoundTrip: floats are modelled as exact reals. The round trips hold over the reals; IEEE rounding is not modelled.
- Session.CorrectionFactorsRead: the statement that `vRef` (`int(Vb / 1.812e-3)`, `ice_scint_code.py:182`) is the word the chip sent holds only over exact reals. In IEEE doubles `Vb = data[4] * 1.812e-3` divided back can fall just below the integer (29 gives 28.999999999999996), so the program can send a fifth HST word one below the word it read; the model does not capture this.
- Session.TemperatureCorrectionSent: its fifth HST word equals the word read only over exact reals; for the same IEEE reason the program can send one less (for example 28 after reading 29).
- Hex.ParseInt: accepts an optional sign followed by hex digits. The whitespace, underscores and `0x` prefix that Python's `int(_, 16)` also accepts are left out.
- Scintillator.Scintillator.SetHV: returns no message. The returned text `"HV set to " + str(voltage) + "V"` depends on Python's float formatting, which is not modelled.
- Scintillator.StrictHpo: returns the five readings as a record, not as the `{"status": …}` dictionary.
- The conversion factors that `getHPO` reads as module globals exist only when the script runs as `__main__`. The model uses the class constants.
- `printStatus`, `help`, the misspelled `__del` and every `__main__` block are console output or process control and are not modelled.
- `utils/scintillators.py`, `run.py`, `main.py` and the raw serial test scripts are not part of this model.
- The constructor of the `scint_commands.py` class (default port `/dev/ttyUSB0`) is not modelled separately. Its `getStatus` is `Scintillator.Scintillator.GetStatusStrict`, and its other methods are the shared ones.

## Findings

| source | as written | input that shows it | evidently intended | confidence | as-written member | corrected member |
|---|---|---|---|---|---|---|
| utils/not-needed/ice_scint_code.py:186-187, 201 | `tb_min` is the temperature of raw word 0 and `tb_max` that of 0xffff. The temperature function is decreasing, so `tb_min > tb_max` and the check refuses every Tb | `setTemperatureCorrectionFactor` with dT1_s = dT2_s = 1000 × the second factor, dT1 = dT2 = 0 and tb = 25 is refused | Tb between the temperatures of 0xffff and 0 | high, not executed | Units.AsWrittenRejectsEveryTb | Units.CorrectionWords, Units.CorrectedAcceptsRoomTemperature |
| utils/not-needed/ice_scint_code.py:305-310 | `readPowerFunction` queries HSC, whose catalog DATA size is 0, then reads `data[0]` | any well-formed `hsc` acknowledgement: `data` is empty and `data[0]` raises IndexError | query HRC, the one catalog entry with a single word (line 38) that nothing else uses | medium, not executed | Session.ReadPowerFunctionAsWrittenFails, Session.AcknowledgedHscHasNoStatusWord | Session.ReadPowerFunctionSpec, Session.ReadPowerFunctionAnswered |
| utils/not-needed/ice_scint_code.py:393-395 | a second `setOutputVoltageControlFunction` replaces the first (362-391) and calls the bare name `readPowerFunction`, which no module scope defines | `setOutputVoltageControlFunction(True)` raises NameError before anything is written | the first definition, which reads through `self.readPowerFunction()` | high, not executed | Session.OutputVoltageControlAsWrittenNeverSwitches | Session.PowerFunctionSwitched |

=== FILE: bytes.dfy ===
/** Bytes as they travel over the serial line, and the three framing bytes
    of the HV chip protocol. */
module Bytes {

  type Byte = x: int | 0 <= x < 256

  const STX: Byte := 0x02
  const ETX: Byte := 0x03
  const CR: Byte := 0x0D

  /** Python's `sum(bytes)`. */
  function Sum(s: seq<Byte>): (r: nat)
    ensures r <= 255 * |s|
  {
    if s == [] then 0 else Sum(s[..|s| - 1]) + s[|s| - 1]
  }

  lemma {:induction false} SumAppend(a: seq<Byte>, b: seq<Byte>)
    ensures Sum(a + b) == Sum(a) + Sum(b)
  {
    if b == [] {
      assert a + b == a;
    } else {
      var ab := a + b;
      assert ab[..|ab| - 1] == a + b[..|b| - 1];
      SumAppend(a, b[..|b| - 1]);
    }
  }

  predicate IsAscii(s: seq<Byte>) {
    forall i :: 0 <= i < |s| ==> s[i] < 128
  }

  /** `bytes.decode("ascii")` on bytes already known to be ASCII. */
  function AsciiText(s: seq<Byte>): (t: string)
    requires IsAscii(s)
    ensures |t| == |s| && forall i :: 0 <= i < |s| ==> t[i] as int == s[i]
    ensures IsAsciiText(t)
  {
    seq(|s|, i requires 0 <= i < |s| => s[i] as char)
  }

  predicate IsAsciiText(t: string) {
    forall i :: 0 <= i < |t| ==> t[i] as int < 128
  }

  /** `str.encode("ascii")` / `bytes(s, "ASCII")` on an ASCII string. */
  function AsciiBytes(t: string): (s: seq<Byte>)
    requires IsAsciiText(t)
    ensures |s| == |t| && IsAscii(s)
    ensures AsciiText(s) == t
  {
    seq(|t|, i requires 0 <= i < |t| => t[i] as int)
  }

  lemma AsciiBytesCons(c: char, t: string)
    requires c as int < 128 && IsAsciiText(t)
    ensures IsAsciiText([c] + t) && AsciiBytes([c] + t) == [c as int] + AsciiBytes(t)
  {
    assert forall i :: 0 < i <= |t| ==> ([c] + t)[i] == t[i - 1];
  }

  /** `str.lower()` restricted to the ASCII range. */
  function Lower(t: string): (r: string)
    ensures |r| == |t|
    ensures forall i :: 0 <= i < |t| && 'A' <= t[i] <= 'Z' ==> r[i] as int == t[i] as int + 32
    ensures forall i :: 0 <= i < |t| && !('A' <= t[i] <= 'Z') ==> r[i] == t[i]
  {
    seq(|t|, i requires 0 <= i < |t| => if 'A' <= t[i] <= 'Z' then (t[i] as int + 32) as char else t[i])
  }
}

=== FILE: catalog.dfy ===
/** The fixed command catalog of the HV chip: for every (lowercase) command
    code, the number of DATA bytes its response frame carries. */
module Catalog {
  import opened Wrappers

  const DataSizes: map<string, nat> := map[
    "hxx" := 4, "hpo" := 20, "hst" := 24, "hrt" := 24, "hof" := 0,
    "hon" := 0, "hcm" := 0, "hre" := 0, "hbv" := 0, "hgt" := 4,
    "hgv" := 4, "hgc" := 4, "hgs" := 4, "hsc" := 0, "hrc" := 4
  ]

  /** The byte count of STX, the three command characters, ETX, the two checksum characters and CR. */
  const FrameOverhead: nat := 8

  /** `_commandResponseSize`: `None` stands for the `KeyError` an unknown command raises. */
  function CommandResponseSize(cmd: string): (r: Option<nat>)
    ensures r.Some? <==> cmd in DataSizes
    ensures r.Some? ==> r.value == FrameOverhead + DataSizes[cmd] && r.value % 4 == 0
  {
    if cmd in DataSizes then Some(FrameOverhead + DataSizes[cmd]) else None
  }

  /** Each catalog entry is three lowercase letters and a whole number of 4-byte words. */
  lemma CatalogShape(cmd: string)
    requires cmd in DataSizes
    ensures |cmd| == 3 && forall i :: 0 <= i < 3 ==> 'a' <= cmd[i] <= 'z'
    ensures DataSizes[cmd] % 4 == 0 && DataSizes[cmd] <= 24
  {
  }
}

/** The device-reported error codes and the taxonomy of ways an exchange fails. */
module Errors {
  import opened Wrappers

  const ErrorCodes: map<int, string> := map[
    1 := "UART Communication Error",
    2 := "Timeout Error",
    3 := "Syntax Error",
    4 := "Checksum Error",
    5 := "Command Error",
    6 := "Parameter Error",
    7 := "Parameter Size Error"
  ]

  datatype Error =
    | EncodeFailure                       // ValueError / UnicodeEncodeError while building a request
    | NoFrame                             // the input ended before STX, ETX and CR were seen (the source blocks)
    | FrameBytesMismatch                  // CommandParsingException "Frame bytes did not match"
    | IndexOutOfRange                     // IndexError: `response[-4]` of a short frame, `data[0]` of an empty reply
    | CommandNotAscii                     // UnicodeDecodeError escaping from the command decode
    | UnknownCommand(cmd: string)         // KeyError escaping from the catalog lookup
    | DataSizeMismatch(expected: nat, actual: nat)
    | ChecksumMismatch(received: int, calculated: nat)
    | BadHexDigits                        // ValueError escaping from `int(_, 16)`
    | DeviceError(code: int, message: string) // ErrorResponseException
    | UnmappedErrorCode(code: int)        // KeyError raised while building ErrorResponseException
    | EchoMismatch(request: string, echoed: string) // the `assert(cmd == ...)` failing
    | ValidationError                     // ValueError for a parameter out of range
    | UndefinedName(name: string)         // NameError: a bare name no module scope defines

  /** `ErrorResponseException(code)`: the fixed message for codes 1 to 7,
      and the `KeyError` its constructor raises for any other code. */
  function ErrorResponse(code: int): (e: Error)
    ensures 1 <= code <= 7 <==> e.DeviceError?
    ensures e.DeviceError? ==> e.code == code && e.message == ErrorCodes[code]
    ensures !e.DeviceError? ==> e == UnmappedErrorCode(code)
  {
    if code in ErrorCodes then DeviceError(code, ErrorCodes[code]) else UnmappedErrorCode(code)
  }

  lemma TimeoutErrorMessage()
    ensures ErrorResponse(2) == DeviceError(2, "Timeout Error")
  {
  }
}

=== FILE: chip.dfy ===
/** The `HighVoltageChip` driver. The serial port is two fields: `input`, the
    bytes the chip has yet to deliver (read one at a time), and `written`,
    the frames written so far. Every operation is proved to do exactly what
    the corresponding function of `Session` says of the old input. */
module HighVoltage {
  import opened Wrappers
  import opened Bytes
  import opened Hex
  import opened Chunks
  import opened Catalog
  import opened Errors
  import opened FrameCodec
  import opened Units
  import opened StatusBits
  import opened PowerFunction
  import opened Session

  /** `_dataToHex`: each 4-byte slice, the last one possibly shorter, read
      with `int(_, 16)`; the first slice that does not parse raises. */
  method DataToHex(data: seq<Byte>) returns (r: Result<seq<int>, Error>)
    ensures r == HexWords(data)
  {
    ghost var groups := Separate(data);
    var out: seq<int> := [];
    var offset := 0;
    while offset < |data|
      invariant offset == 4 * |out| && |out| <= |groups|
      invariant offset < |data| <==> |out| < |groups|
      invariant forall i :: 0 <= i < |out| ==> ParseInt(groups[i]) == Some(out[i])
    {
      var num := data[offset .. Min(offset + 4, |data|)];
      assert num == groups[|out|];
      match ParseInt(num)
      case None =>
        return Failure(BadHexDigits);
      case Some(v) =>
        out := out + [v];
        offset := offset + 4;
    }
    assert out == seq(|groups|, i requires 0 <= i < |groups| => ParseInt(groups[i]).value);
    return Success(out);
  }

  class HighVoltageChip {
    var input: seq<Byte>
    var written: seq<seq<Byte>>

    /** `HighVoltageChip(deviceFile)`: a port on which nothing has been written yet. */
    constructor (device: seq<Byte>)
      ensures input == device && written == []
    {
      input := device;
      written := [];
    }

    /** `_sendCommand`: convert the payload, frame it and write it. */
    method SendCommand(cmd: string, p: Payload) returns (r: Result<(), Error>)
      modifies this
      ensures Encode(cmd, p).Success? ==> r == Success(()) && written == old(written) + [Encode(cmd, p).value]
      ensures Encode(cmd, p).Failure? ==> r == Failure(Encode(cmd, p).error) && written == old(written)
      ensures input == old(input)
    {
      var data := PayloadBytes(p);
      if data.Failure? {
        return Failure(data.error);
      }
      if !IsAsciiText(cmd) {
        return Failure(EncodeFailure);
      }
      var cmdLine := [STX] + AsciiBytes(cmd) + data.value + [ETX];
      var check := ChecksumText(Sum(cmdLine) % 256);
      cmdLine := cmdLine + check + [CR];
      written := written + [cmdLine];
      return Success(());
    }

    /** `_getResponse`: read byte by byte through the three-state recogniser
        until the CR that follows ETX, then validate the frame read. */
    method GetResponse() returns (r: Result<Reply, Error>)
      modifies this
      ensures (r, input) == Receive(old(input))
      ensures written == old(written)
    {
      var response: seq<Byte> := [];
      var state := AwaitingStart;
      while true
        invariant old(input) == response + input
        invariant FrameLength(old(input), AwaitingStart) == Shift(FrameLength(input, state), |response|)
        invariant written == old(written)
        decreases |input|
      {
        if input == [] {
          return Failure(NoFrame);
        }
        var b := input[0];
        ghost var before := state;
        assert FrameLength(input, state) == FrameLength([b] + input[1..], state);
        input := input[1..];
        response := response + [b];
        if state == AwaitingStart && b == STX {
          state := AwaitingEnd;
        }
        if state == AwaitingEnd && b == ETX {
          state := AwaitingTerminator;
        }
        if state == AwaitingTerminator && b == CR {
          assert FrameLength([b] + input, before) == Some(1);
          assert FrameLength(old(input), AwaitingStart) == Some(|response|);
          ReceiveStops(old(input), response, input);
          match DecodeHeader(response)
          case Failure(e) =>
            return Failure(e);
          case Success((cmd, data)) =>
            CatalogShape(cmd);
            var words := DataToHex(data);
            if words.Failure? {
              return Failure(words.error);
            }
            return Success(Reply(cmd, words.value));
        }
      }
    }

    /** One exchange: send, receive, and check the echo (or the `hxx` sentinel). */
    method Query(cmd: string, p: Payload, echo: string) returns (r: Result<seq<int>, Error>)
      modifies this
      ensures var t := Transaction(cmd, p, echo, old(input));
        written == old(written) + t.frames && input == t.rest && r == t.result
    {
      var sent := SendCommand(cmd, p);
      if sent.Failure? {
        return Failure(sent.error);
      }
      ghost var t := Transaction(cmd, p, echo, old(input));
      assert t.frames == [Encode(cmd, p).value];
      var reply := GetResponse();
      if reply.Failure? {
        return Failure(reply.error);
      }
      var rep := reply.value;
      assert WellFormedReply(rep);
      assert t == Step(t.frames, input, CheckReply(echo, rep));
      if rep.cmd == "hxx" {
        return Failure(ErrorResponse(rep.words[0]));
      }
      if rep.cmd != echo {
        return Failure(EchoMismatch(echo, rep.cmd));
      }
      return Success(rep.words);
    }

    method GetOutputVoltage() returns (r: Result<real, Error>)
      modifies this
      ensures var s := GetOutputVoltageSpec(old(input));
        written == old(written) + s.frames && input == s.rest && r == s.result
    {
      var data := Query("HGV", Raw([]), "hgv");
      if data.Failure? {
        return Failure(data.error);
      }
      return Success(ToVoltage(data.value[0]));
    }

    method GetOutputCurrent() returns (r: Result<real, Error>)
      modifies this
      ensures var s := GetOutputCurrentSpec(old(input));
        written == old(written) + s.frames && input == s.rest && r == s.result
    {
      var data := Query("HGC", Raw([]), "hgc");
      if data.Failure? {
        return Failure(data.error);
      }
      return Success(ToCurrent(data.value[0]));
    }

    method GetTemperature() returns (r: Result<real, Error>)
      modifies this
      ensures var s := GetTemperatureSpec(old(input));
        written == old(written) + s.frames && input == s.rest && r == s.result
    {
      var data := Query("HGT", Raw([]), "hgt");
      if data.Failure? {
        return Failure(data.error);
      }
      return Success(ToTemperature(data.value[0] as real));
    }

    method GetTemperatureCorrectionFactor() returns (r: Result<CorrectionReading, Error>)
      modifies this
      ensures var s := GetTemperatureCorrectionFactorSpec(old(input));
        written == old(written) + s.frames && input == s.rest && r == s.result
    {
      var data := Query("HRT", Raw([]), "hrt");
      if data.Failure? {
        return Failure(data.error);
      }
      var d := data.value;
      return Success(CorrectionReading(
        ToSecondCoefficient(d[0]), ToSecondCoefficient(d[1]),
        ToFirstCoefficient(d[2]), ToFirstCoefficient(d[3]),
        ToVoltage(d[4]), ToTemperature(d[5] as real)));
    }

    /** Read the factors in place, validate the new ones, then write all six
        words with the reference voltage read back unchanged. */
    method SetTemperatureCorrectionFactor(p: CorrectionFactors) returns (r: Result<(), Error>)
      modifies this
      ensures var s := SetTemperatureCorrectionFactorSpec(p, old(input));
        written == old(written) + s.frames && input == s.rest && r == s.result
    {
      ghost var g := GetTemperatureCorrectionFactorSpec(input);
      TemperatureCorrectionCases(p, input);
      var current := GetTemperatureCorrectionFactor();
      if current.Failure? {
        return Failure(current.error);
      }
      var vRef := Trunc(current.value.vb / VoltageFactor);
      var words := CorrectionWords(p, vRef);
      if words.None? {
        return Failure(ValidationError);
      }
      var data := Query("HST", Words(words.value), "hst");
      if data.Failure? {
        return Failure(data.error);
      }
      return Success(());
    }

    method GetStatus() returns (r: Result<StatusFlags, Error>)
      modifies this
      ensures var s := GetStatusSpec(old(input));
        written == old(written) + s.frames && input == s.rest && r == s.result
    {
      var data := Query("HGS", Raw([]), "hgs");
      if data.Failure? {
        return Failure(data.error);
      }
      return Success(HVStatus(data.value[0]));
    }

    method SetHighVoltageOutput(on: bool) returns (r: Result<(), Error>)
      modifies this
      ensures var s := SetHighVoltageOutputSpec(on, old(input));
        written == old(written) + s.frames && input == s.rest && r == s.result
    {
      var data;
      if on {
        data := Query("HON", Raw([]), "hon");
      } else {
        data := Query("HOF", Raw([]), "hof");
      }
      if data.Failure? {
        return Failure(data.error);
      }
      return Success(());
    }

    method SetTemperatureCompensationMode(enabled: bool) returns (r: Result<(), Error>)
      modifies this
      ensures var s := SetTemperatureCompensationModeSpec(enabled, old(input));
        written == old(written) + s.frames && input == s.rest && r == s.result
    {
      var data;
      if enabled {
        data := Query("HCM", Raw([0x31]), "hcm");
      } else {
        data := Query("HCM", Raw([0x30]), "hcm");
      }
      if data.Failure? {
        return Failure(data.error);
      }
      return Success(());
    }

    method ResetPowersupply() returns (r: Result<(), Error>)
      modifies this
      ensures var s := ResetPowersupplySpec(old(input));
        written == old(written) + s.frames && input == s.rest && r == s.result
    {
      var data := Query("HRE", Raw([]), "hre");
      if data.Failure? {
        return Failure(data.error);
      }
      return Success(());
    }

    method SetReferenceVoltage(voltage: real) returns (r: Result<(), Error>)
      modifies this
      ensures var s := SetReferenceVoltageSpec(voltage, old(input));
        written == old(written) + s.frames && input == s.rest && r == s.result
    {
      var value := ReferenceVoltageWord(voltage);
      if value.None? {
        return Failure(ValidationError);
      }
      var data := Query("HBV", Word(value.value), "hbv");
      if data.Failure? {
        return Failure(data.error);
      }
      return Success(());
    }

    method GetMonitoringInfo() returns (r: Result<Monitoring, Error>)
      modifies this
      ensures var s := GetMonitoringInfoSpec(old(input));
        written == old(written) + s.frames && input == s.rest && r == s.result
    {
      var data := Query("HPO", Raw([]), "hpo");
      if data.Failure? {
        return Failure(data.error);
      }
      var d := data.value;
      return Success(Monitoring(d[0], ToVoltage(d[1]), ToVoltage(d[2]), ToCurrent(d[3]), ToTemperature(d[4] as real)));
    }

    /** `readPowerFunction`, with the HRC query the status table needs. */
    method ReadPowerFunction() returns (r: Result<(OverCurrentProtection, OutputVoltageControl), Error>)
      modifies this
      ensures var s := ReadPowerFunctionSpec(old(input));
        written == old(written) + s.frames && input == s.rest && r == s.result
    {
      var data := Query("HRC", Raw([]), "hrc");
      if data.Failure? {
        return Failure(data.error);
      }
      return Success(DecodePowerFunction(data.value[0]));
    }

    method SetOverCurrentProtection(on: bool) returns (r: Result<Toggle, Error>)
      modifies this
      ensures var s := SetOverCurrentProtectionSpec(on, old(input));
        written == old(written) + s.frames && input == s.rest && r == s.result
    {
      var pf := ReadPowerFunction();
      if pf.Failure? {
        return Failure(pf.error);
      }
      var code := OverCurrentProtectionCode(on, pf.value.1);
      if code.None? {
        return Success(StatusUnavailable);
      }
      var data := Query("HSC", Word(code.value), "hsc");
      if data.Failure? {
        return Failure(data.error);
      }
      return Success(Switched);
    }

    method SetOutputVoltageControlFunction(on: bool) returns (r: Result<Toggle, Error>)
      modifies this
      ensures var s := SetOutputVoltageControlFunctionSpec(on, old(input));
        written == old(written) + s.frames && input == s.rest && r == s.result
    {
      var pf := ReadPowerFunction();
      if pf.Failure? {
        return Failure(pf.error);
      }
      var code := OutputVoltageControlCode(on, pf.value.0);
      if code.None? {
        return Success(StatusUnavailable);
      }
      var data := Query("HSC", Word(code.value), "hsc");
      if data.Failure? {
        return Failure(data.error);
      }
      return Success(Switched);
    }
  }
}

=== FILE: chunks.dfy ===
/** The comprehension `[s[i:i+4] for i in range(0, len(s), 4)]`, which the
    frame decoder (`_dataToHex`) and the ASCII command path
    (`separate_byte_string`) both use to cut data into 4-byte words. */
module Chunks {

  function Min(a: int, b: int): int { if a < b then a else b }

  /** Python slices clamp at the end of the sequence, so the last group may be short. */
  function Separate<T>(s: seq<T>): (r: seq<seq<T>>)
    ensures |r| == (|s| + 3) / 4
  {
    seq((|s| + 3) / 4, i requires 0 <= i < (|s| + 3) / 4 => s[4 * i .. Min(4 * i + 4, |s|)])
  }

  function Flatten<T>(ss: seq<seq<T>>): seq<T> {
    if ss == [] then [] else ss[0] + Flatten(ss[1..])
  }

  lemma SeparateShort<T>(s: seq<T>)
    requires 0 < |s| <= 4
    ensures Separate(s) == [s]
  {
    var r := Separate(s);
    assert |r| == 1;
    assert Min(4 * 0 + 4, |s|) == |s|;
    assert r[0] == s[0 .. |s|] == s;
  }

  lemma SeparateStep<T>(s: seq<T>)
    requires |s| > 4
    ensures Separate(s) == [s[..4]] + Separate(s[4..])
  {
    var l, r := Separate(s), [s[..4]] + Separate(s[4..]);
    assert |l| == |r|;
    forall i | 1 <= i < |l| ensures l[i] == r[i] {
      assert r[i] == s[4..][4 * (i - 1) .. Min(4 * (i - 1) + 4, |s| - 4)];
    }
  }

  /** Joining the groups gives back the input. */
  lemma {:induction false} FlattenSeparate<T>(s: seq<T>)
    ensures Flatten(Separate(s)) == s
  {
    if |s| == 0 {
    } else if |s| <= 4 {
      SeparateShort(s);
      assert Flatten([s]) == s + Flatten([s][1..]);
    } else {
      SeparateStep(s);
      var ss := Separate(s);
      assert ss[1..] == Separate(s[4..]);
      FlattenSeparate(s[4..]);
    }
  }

  /** Every group is non-empty, every group but the last has four elements,
      and there are ceil(|s| / 4) of them. */
  lemma SeparateShape<T>(s: seq<T>)
    ensures |Separate(s)| * 4 >= |s| > (|Separate(s)| - 1) * 4
    ensures forall i :: 0 <= i < |Separate(s)| - 1 ==> |Separate(s)[i]| == 4
    ensures forall i :: 0 <= i < |Separate(s)| ==> 1 <= |Separate(s)[i]| <= 4
    ensures forall i :: 0 <= i < |Separate(s)| ==> Separate(s)[i] == s[4 * i .. Min(4 * i + 4, |s|)]
  {
  }

  /** Input whose length is a multiple of four splits into full words only. */
  lemma SeparateWhole<T>(s: seq<T>)
    requires |s| % 4 == 0
    ensures |Separate(s)| * 4 == |s|
    ensures forall i :: 0 <= i < |Separate(s)| ==> Separate(s)[i] == s[4 * i .. 4 * i + 4]
  {
  }

  /** Splitting a concatenation of four-element words gives the words back. */
  lemma {:induction false} SeparateFlatten<T>(ws: seq<seq<T>>)
    requires forall i :: 0 <= i < |ws| ==> |ws[i]| == 4
    ensures Separate(Flatten(ws)) == ws
  {
    if ws != [] {
      SeparateFlatten(ws[1..]);
      var s := Flatten(ws);
      FlattenLength(ws);
      assert s == ws[0] + Flatten(ws[1..]);
      assert s[..4] == ws[0];
      assert s[4..] == Flatten(ws[1..]);
      if |s| > 4 {
        SeparateStep(s);
      } else {
        assert ws[1..] == [];
        SeparateShort(s);
      }
    }
  }

  lemma {:induction false} FlattenLength<T>(ws: seq<seq<T>>)
    requires forall i :: 0 <= i < |ws| ==> |ws[i]| == 4
    ensures |Flatten(ws)| == 4 * |ws|
  {
    if ws != [] { FlattenLength(ws[1..]); }
  }
}

=== FILE: frame.dfy ===
/** The frame codec of the HV chip protocol:
      STX | CMD (3 ASCII) | DATA (4 hex digits per word) | ETX | CHK (2 uppercase hex) | CR
    where CHK is the byte sum of STX .. ETX modulo 256. `Encode` is the request
    side of `_sendCommand`, `FrameLength` the three-state recogniser of
    `_getResponse`, and `Decode` the validation that follows it. */
module FrameCodec {
  import opened Wrappers
  import opened Bytes
  import opened Hex
  import opened Chunks
  import opened Catalog
  import opened Errors

  /** The shapes `_sendCommand` accepts for its `data` argument. */
  datatype Payload =
    | Raw(bytes: seq<Byte>)   // a `bytes` value, sent as it is
    | Text(text: string)      // a `str`, sent ASCII-encoded
    | Words(words: seq<int>)  // a list of ints, each written with "{0:04x}"
    | Word(word: int)         // a single int, written with "{0:04x}"
    | Unsupported             // any other Python value

  /** `b''.join(_intToBytes(v) for v in words)`. */
  function WordsBytes(words: seq<int>): seq<Byte> {
    Flatten(seq(|words|, i requires 0 <= i < |words| => IntToBytes(words[i])))
  }

  /** The DATA bytes of a request; `EncodeFailure` is the `ValueError` (or the
      `UnicodeEncodeError` of a non-ASCII string) that `_sendCommand` raises. */
  function PayloadBytes(p: Payload): (r: Result<seq<Byte>, Error>)
    ensures r.Failure? <==> p.Unsupported? || (p.Text? && !IsAsciiText(p.text))
    ensures p.Raw? ==> r == Success(p.bytes)
  {
    match p
    case Raw(b) => Success(b)
    case Text(t) => if IsAsciiText(t) then Success(AsciiBytes(t)) else Failure(EncodeFailure)
    case Words(ws) => Success(WordsBytes(ws))
    case Word(w) => Success(IntToBytes(w))
    case Unsupported => Failure(EncodeFailure)
  }

  /** STX | cmd | data | ETX followed by its checksum text and CR. */
  function FrameOf(cmd: seq<Byte>, data: seq<Byte>): seq<Byte> {
    var body := [STX] + cmd + data + [ETX];
    body + ChecksumText(Sum(body) % 256) + [CR]
  }

  /** The frame `_sendCommand(cmd, data)` writes to the port. */
  function Encode(cmd: string, p: Payload): (r: Result<seq<Byte>, Error>)
    ensures r.Success? <==> PayloadBytes(p).Success? && IsAsciiText(cmd)
    ensures r.Success? ==> r.value == FrameOf(AsciiBytes(cmd), PayloadBytes(p).value)
  {
    match PayloadBytes(p)
    case Failure(e) => Failure(e)
    case Success(data) =>
      if IsAsciiText(cmd) then Success(FrameOf(AsciiBytes(cmd), data)) else Failure(EncodeFailure)
  }

  /** The wire layout of an encoded frame: the delimiters sit where the
      decoder looks for them, and the two checksum characters are uppercase
      hex digits that read back as the byte sum of everything before them. */
  lemma {:induction false} FrameLayout(cmd: seq<Byte>, data: seq<Byte>)
    ensures var f := FrameOf(cmd, data);
      && |f| == 5 + |cmd| + |data|
      && f[0] == STX && f[|f| - 1] == CR && f[|f| - 4] == ETX
      && f[1 .. 1 + |cmd|] == cmd
      && f[1 + |cmd| .. |f| - 4] == data
      && f[|f| - 3 .. |f| - 1] == ChecksumText(Sum(f[.. |f| - 3]) % 256)
      && ParseInt(f[|f| - 3 .. |f| - 1]) == Some(Sum(f[.. |f| - 3]) % 256)
      && (forall i :: |f| - 3 <= i < |f| - 1 ==> 0x30 <= f[i] <= 0x39 || 0x41 <= f[i] <= 0x46)
  {
    var body := [STX] + cmd + data + [ETX];
    ChecksumRoundTrip(Sum(body) % 256);
    var f := FrameOf(cmd, data);
    assert |f| == |body| + 3;
    assert f[.. |f| - 3] == body;
    assert f[1 .. 1 + |cmd|] == cmd;
    assert f[1 + |cmd| .. |f| - 4] == data;
  }

  // ---------------------------------------------------------------------------
  // The byte-level recogniser of `_getResponse`

  datatype ScanState = AwaitingStart | AwaitingEnd | AwaitingTerminator

  /** The two state updates made for every byte read. */
  function Advance(st: ScanState, b: Byte): ScanState {
    var st1 := if st == AwaitingStart && b == STX then AwaitingEnd else st;
    if st1 == AwaitingEnd && b == ETX then AwaitingTerminator else st1
  }

  /** The number of bytes the recogniser reads from `s`, starting in state
      `st`, up to and including the CR that ends the loop; `None` when `s`
      runs out first. On a stream that holds no STX, then ETX, then CR the
      source's loop blocks on the port; the model reports that as `None`,
      which `Receive` turns into `NoFrame`. */
  function FrameLength(s: seq<Byte>, st: ScanState): (r: Option<nat>)
    ensures r.Some? ==> 1 <= r.value <= |s|
  {
    if s == [] then None
    else
      var st' := Advance(st, s[0]);
      if st' == AwaitingTerminator && s[0] == CR then Some(1)
      else match FrameLength(s[1..], st')
        case None => None
        case Some(n) => Some(n + 1)
  }

  function Shift(r: Option<nat>, k: nat): Option<nat> {
    match r
    case None => None
    case Some(n) => Some(n + k)
  }

  /** Bytes that leave the recogniser's state alone are read and kept. */
  lemma {:induction false} ScanSkips(s: seq<Byte>, st: ScanState, t: seq<Byte>)
    requires forall i :: 0 <= i < |s| ==> Advance(st, s[i]) == st
    requires st == AwaitingTerminator ==> forall i :: 0 <= i < |s| ==> s[i] != CR
    ensures FrameLength(s + t, st) == Shift(FrameLength(t, st), |s|)
  {
    if s != [] {
      assert (s + t)[1..] == s[1..] + t;
      ScanSkips(s[1..], st, t);
    } else {
      assert s + t == t;
    }
  }

  /** On an encoded frame followed by anything, the recogniser stops exactly at
      the frame's CR, provided the command and data hold no ETX byte. */
  lemma RecogniseFrame(cmd: seq<Byte>, data: seq<Byte>, rest: seq<Byte>)
    requires forall i :: 0 <= i < |cmd + data| ==> (cmd + data)[i] != ETX
    ensures FrameLength(FrameOf(cmd, data) + rest, AwaitingStart) == Some(|FrameOf(cmd, data)|)
  {
    var body := [STX] + cmd + data + [ETX];
    var chk := ChecksumText(Sum(body) % 256);
    var x := cmd + data;
    var s := FrameOf(cmd, data) + rest;
    assert s == [STX] + (x + ([ETX] + (chk + ([CR] + rest))));
    assert s[1..] == x + ([ETX] + (chk + ([CR] + rest)));
    ScanSkips(x, AwaitingEnd, [ETX] + (chk + ([CR] + rest)));
    var u := [ETX] + (chk + ([CR] + rest));
    assert u[1..] == chk + ([CR] + rest);
    ChecksumRoundTrip(Sum(body) % 256);
    ScanSkips(chk, AwaitingTerminator, [CR] + rest);
  }

  /** Bytes read before the first STX are returned with the frame. */
  lemma LeadingNoiseKept(noise: seq<Byte>, s: seq<Byte>)
    requires forall i :: 0 <= i < |noise| ==> noise[i] != STX
    ensures FrameLength(noise + s, AwaitingStart) == Shift(FrameLength(s, AwaitingStart), |noise|)
  {
    ScanSkips(noise, AwaitingStart, s);
  }

  /** For any stream, not only for encoder output: the recogniser reads
      everything up to the first STX, then up to the first ETX after it, then
      up to the first CR after that, and stops there. */
  lemma StopsAtFirstTerminator(x: seq<Byte>, y: seq<Byte>, z: seq<Byte>, rest: seq<Byte>)
    requires forall i :: 0 <= i < |x| ==> x[i] != STX
    requires forall i :: 0 <= i < |y| ==> y[i] != ETX
    requires forall i :: 0 <= i < |z| ==> z[i] != CR
    ensures FrameLength(x + [STX] + y + [ETX] + z + [CR] + rest, AwaitingStart) == Some(|x| + |y| + |z| + 3)
  {
    var u := [ETX] + z + [CR] + rest;
    StopsAtCR(z, rest);
    SkipsToETX(y, u);
    AfterSTX(y + u, |y| + |z| + 2);
    LeadingNoiseKept(x, [STX] + (y + u));
    StreamShape(x, y, z, rest);
  }

  lemma StreamShape(x: seq<Byte>, y: seq<Byte>, z: seq<Byte>, rest: seq<Byte>)
    ensures x + [STX] + y + [ETX] + z + [CR] + rest == x + ([STX] + (y + ([ETX] + z + [CR] + rest)))
  {
  }

  lemma StopsAtCR(z: seq<Byte>, rest: seq<Byte>)
    requires forall i :: 0 <= i < |z| ==> z[i] != CR
    ensures FrameLength([ETX] + z + [CR] + rest, AwaitingEnd) == Some(|z| + 2)
  {
    var u := [ETX] + z + [CR] + rest;
    assert u[1..] == z + ([CR] + rest);
    ScanSkips(z, AwaitingTerminator, [CR] + rest);
  }

  /** STX moves the recogniser from waiting for the start to waiting for ETX. */
  lemma AfterSTX(w: seq<Byte>, m: nat)
    requires FrameLength(w, AwaitingEnd) == Some(m)
    ensures FrameLength([STX] + w, AwaitingStart) == Some(m + 1)
  {
    ScanStep(STX, w, AwaitingStart);
    assert Advance(AwaitingStart, STX) == AwaitingEnd;
  }

  /** After STX, bytes other than ETX are read and kept. */
  lemma SkipsToETX(y: seq<Byte>, u: seq<Byte>)
    requires forall i :: 0 <= i < |y| ==> y[i] != ETX
    ensures FrameLength(y + u, AwaitingEnd) == Shift(FrameLength(u, AwaitingEnd), |y|)
  {
    ScanSkips(y, AwaitingEnd, u);
  }

  /** One byte that does not end the loop is read and the scan goes on in
      the state it leads to. */
  lemma ScanStep(b: Byte, w: seq<Byte>, st: ScanState)
    requires !(Advance(st, b) == AwaitingTerminator && b == CR)
    ensures FrameLength([b] + w, st) == Shift(FrameLength(w, Advance(st, b)), 1)
  {
    assert ([b] + w)[0] == b && ([b] + w)[1..] == w;
  }

  // ---------------------------------------------------------------------------
  // Validation of a received frame

  datatype Reply = Reply(cmd: string, words: seq<int>)

  /** The checks of lines 115-131: delimiters, catalog length and checksum;
      on success the lowercase command and the DATA bytes. */
  function DecodeHeader(f: seq<Byte>): (r: Result<(string, seq<Byte>), Error>)
    ensures r.Success? ==>
      && |f| >= 8 && IsAscii(f[1..4])
      && r.value.0 == Lower(AsciiText(f[1..4])) && r.value.0 in DataSizes
      && |f| == FrameOverhead + DataSizes[r.value.0]
      && r.value.1 == f[4 .. |f| - 4]
  {
    if |f| == 0 then Failure(IndexOutOfRange)
    else if f[0] != STX || f[|f| - 1] != CR then Failure(FrameBytesMismatch)
    else if |f| < 4 then Failure(IndexOutOfRange)
    else if f[|f| - 4] != ETX then Failure(FrameBytesMismatch)
    else if !IsAscii(f[1..4]) then Failure(CommandNotAscii)
    else
      var cmd := Lower(AsciiText(f[1..4]));
      match CommandResponseSize(cmd)
      case None => Failure(UnknownCommand(cmd))
      case Some(size) =>
        if |f| != size then Failure(DataSizeMismatch(size, |f|))
        else match ParseInt(f[|f| - 3 .. |f| - 1])
          case None => Failure(BadHexDigits)
          case Some(received) =>
            var calculated := Sum(f[.. |f| - 3]) % 256;
            if calculated != received then Failure(ChecksumMismatch(received, calculated))
            else Success((cmd, f[4 .. |f| - 4]))
  }

  /** `_dataToHex`: every 4-byte group read with `int(_, 16)`. */
  function HexWords(data: seq<Byte>): (r: Result<seq<int>, Error>)
    ensures r.Success? <==> forall i :: 0 <= i < |Separate(data)| ==> ParseInt(Separate(data)[i]).Some?
    ensures r.Success? ==> |r.value| == |Separate(data)|
    ensures r.Success? ==> forall i :: 0 <= i < |Separate(data)| ==> ParseInt(Separate(data)[i]) == Some(r.value[i])
    ensures r.Failure? ==> r.error == BadHexDigits
  {
    var groups := Separate(data);
    if forall i :: 0 <= i < |groups| ==> ParseInt(groups[i]).Some? then
      Success(seq(|groups|, i requires 0 <= i < |groups| => ParseInt(groups[i]).value))
    else Failure(BadHexDigits)
  }

  /** The received frame as `(command, words)`, or the reason it is rejected. */
  function Decode(f: seq<Byte>): (r: Result<Reply, Error>)
    ensures r.Success? ==>
      && |f| >= 8 && f[0] == STX && f[|f| - 1] == CR && f[|f| - 4] == ETX
      && IsAscii(f[1..4]) && r.value.cmd == Lower(AsciiText(f[1..4]))
      && HexWords(f[4 .. |f| - 4]) == Success(r.value.words)
      && r.value.cmd in DataSizes
      && |f| == FrameOverhead + DataSizes[r.value.cmd]
      && 4 * |r.value.words| == DataSizes[r.value.cmd]
      && ParseInt(f[|f| - 3 .. |f| - 1]) == Some(Sum(f[.. |f| - 3]) % 256)
  {
    match DecodeHeader(f)
    case Failure(e) => Failure(e)
    case Success((cmd, data)) =>
      CatalogShape(cmd);
      match HexWords(data)
      case Failure(e) => Failure(e)
      case Success(ws) => Success(Reply(cmd, ws))
  }

  /** The frame checks in the order the reader makes them: a frame is
      accepted exactly when it is delimited, names a catalog command in
      ASCII, has that command's length and carries the right checksum; each
      failed check gives its own error. */
  lemma DecodeHeaderAccepts(f: seq<Byte>)
    ensures DecodeHeader(f).Success? <==>
        && |f| >= 4 && f[0] == STX && f[|f| - 1] == CR && f[|f| - 4] == ETX
        && IsAscii(f[1..4]) && Lower(AsciiText(f[1..4])) in DataSizes
        && |f| == FrameOverhead + DataSizes[Lower(AsciiText(f[1..4]))]
        && ParseInt(f[|f| - 3 .. |f| - 1]) == Some(Sum(f[.. |f| - 3]) % 256)
    ensures |f| > 0 && (f[0] != STX || f[|f| - 1] != CR) ==> DecodeHeader(f) == Failure(FrameBytesMismatch)
    ensures |f| >= 4 && f[0] == STX && f[|f| - 1] == CR && f[|f| - 4] != ETX ==> DecodeHeader(f) == Failure(FrameBytesMismatch)
    ensures |f| >= 4 && f[0] == STX && f[|f| - 1] == CR && f[|f| - 4] == ETX && !IsAscii(f[1..4]) ==>
              DecodeHeader(f) == Failure(CommandNotAscii)
    ensures (&& |f| >= 4 && f[0] == STX && f[|f| - 1] == CR && f[|f| - 4] == ETX && IsAscii(f[1..4])
             && Lower(AsciiText(f[1..4])) !in DataSizes)
            ==> DecodeHeader(f) == Failure(UnknownCommand(Lower(AsciiText(f[1..4]))))
    ensures (&& |f| >= 4 && f[0] == STX && f[|f| - 1] == CR && f[|f| - 4] == ETX && IsAscii(f[1..4])
             && Lower(AsciiText(f[1..4])) in DataSizes && |f| != FrameOverhead + DataSizes[Lower(AsciiText(f[1..4]))])
            ==> DecodeHeader(f) == Failure(DataSizeMismatch(FrameOverhead + DataSizes[Lower(AsciiText(f[1..4]))], |f|))
    ensures |f| == 0 ==> DecodeHeader(f) == Failure(IndexOutOfRange)
    ensures 0 < |f| < 4 && f[0] == STX && f[|f| - 1] == CR ==> DecodeHeader(f) == Failure(IndexOutOfRange)
    ensures (&& |f| >= 4 && f[0] == STX && f[|f| - 1] == CR && f[|f| - 4] == ETX && IsAscii(f[1..4])
             && Lower(AsciiText(f[1..4])) in DataSizes && |f| == FrameOverhead + DataSizes[Lower(AsciiText(f[1..4]))]
             && ParseInt(f[|f| - 3 .. |f| - 1]).None?)
            ==> DecodeHeader(f) == Failure(BadHexDigits)
    ensures (&& |f| >= 4 && f[0] == STX && f[|f| - 1] == CR && f[|f| - 4] == ETX && IsAscii(f[1..4])
             && Lower(AsciiText(f[1..4])) in DataSizes && |f| == FrameOverhead + DataSizes[Lower(AsciiText(f[1..4]))]
             && ParseInt(f[|f| - 3 .. |f| - 1]).Some? && ParseInt(f[|f| - 3 .. |f| - 1]).value != Sum(f[.. |f| - 3]) % 256)
            ==> DecodeHeader(f) == Failure(ChecksumMismatch(ParseInt(f[|f| - 3 .. |f| - 1]).value, Sum(f[.. |f| - 3]) % 256))
  {
  }

  /** A frame decodes exactly when its header checks pass and every DATA
      group reads as hexadecimal. */
  lemma DecodeAccepts(f: seq<Byte>)
    ensures Decode(f).Success? <==> DecodeHeader(f).Success? && HexWords(f[4 .. |f| - 4]).Success?
  {
  }

  /** Words in -0xFFF .. 0xFFFF survive being written and read back. */
  lemma HexWordsRoundTrip(ws: seq<int>)
    requires forall i :: 0 <= i < |ws| ==> -0xFFF <= ws[i] <= 0xFFFF
    ensures |WordsBytes(ws)| == 4 * |ws|
    ensures HexWords(WordsBytes(ws)) == Success(ws)
  {
    var parts := seq(|ws|, i requires 0 <= i < |ws| => IntToBytes(ws[i]));
    forall i | 0 <= i < |ws| ensures |parts[i]| == 4 && ParseInt(parts[i]) == Some(ws[i]) {
      IntToBytesLength(ws[i]);
      IntToBytesRoundTrip(ws[i]);
    }
    SeparateFlatten(parts);
    FlattenLength(parts);
    var r := HexWords(WordsBytes(ws));
    assert r.Success?;
    assert r.value == ws;
  }

  /** Round trip: decoding the frame `_sendCommand(cmd, words)` writes gives
      back the lowercase command and the words, whenever the command is in the
      catalog and the words fill exactly the DATA size it declares. */
  lemma {:induction false} DecodeEncode(cmd: string, ws: seq<int>)
    requires |cmd| == 3 && IsAsciiText(cmd) && Lower(cmd) in DataSizes
    requires 4 * |ws| == DataSizes[Lower(cmd)]
    requires forall i :: 0 <= i < |ws| ==> -0xFFF <= ws[i] <= 0xFFFF
    ensures Encode(cmd, Words(ws)).Success?
    ensures Decode(Encode(cmd, Words(ws)).value) == Success(Reply(Lower(cmd), ws))
  {
    var cb := AsciiBytes(cmd);
    var data := WordsBytes(ws);
    HexWordsRoundTrip(ws);
    var f := FrameOf(cb, data);
    FrameLayout(cb, data);
    assert f[1..4] == cb;
    assert IsAscii(f[1..4]);
    assert AsciiText(f[1..4]) == cmd;
    assert DecodeHeader(f) == Success((Lower(cmd), data));
  }

  lemma NoEtxBeforeTrailer(cmd: string, ws: seq<int>)
    requires |cmd| == 3 && IsAsciiText(cmd)
    requires forall i :: 0 <= i < 3 ==> cmd[i] as int != ETX
    requires forall i :: 0 <= i < |ws| ==> 0 <= ws[i] <= 0xFFFF
    ensures forall i :: 0 <= i < |AsciiBytes(cmd) + WordsBytes(ws)| ==> (AsciiBytes(cmd) + WordsBytes(ws))[i] != ETX
  {
    var cb := AsciiBytes(cmd);
    var data := WordsBytes(ws);
    var x := cb + data;
    HexDigitsInWords(ws);
    forall i | 0 <= i < |x| ensures x[i] != ETX {
      if i >= 3 {
        assert x[i] == data[i - 3];
        assert DigitValue(data[i - 3]).Some?;
      }
    }
  }

  /** A stream that carries an encoded frame is read up to the frame's end,
      and the frame read decodes to what was encoded. */
  lemma {:induction false} ReadEncodedFrame(cmd: string, ws: seq<int>, rest: seq<Byte>)
    requires |cmd| == 3 && IsAsciiText(cmd) && Lower(cmd) in DataSizes
    requires forall i :: 0 <= i < 3 ==> cmd[i] as int != ETX
    requires 4 * |ws| == DataSizes[Lower(cmd)]
    requires forall i :: 0 <= i < |ws| ==> 0 <= ws[i] <= 0xFFFF
    ensures Encode(cmd, Words(ws)).Success?
    ensures var f := Encode(cmd, Words(ws)).value;
      && FrameLength(f + rest, AwaitingStart) == Some(|f|)
      && (f + rest)[.. |f|] == f
      && Decode(f) == Success(Reply(Lower(cmd), ws))
  {
    DecodeEncode(cmd, ws);
    var cb := AsciiBytes(cmd);
    var data := WordsBytes(ws);
    NoEtxBeforeTrailer(cmd, ws);
    RecogniseFrame(cb, data, rest);
    var f := FrameOf(cb, data);
    assert (f + rest)[.. |f|] == f;
  }

  /** Joining lowercase hexadecimal groups gives lowercase hexadecimal text. */
  lemma {:induction false} FlattenLowerHex(parts: seq<seq<Byte>>)
    requires forall i :: 0 <= i < |parts| ==> IsLowerHex(parts[i])
    ensures IsLowerHex(Flatten(parts))
  {
    if parts != [] {
      FlattenLowerHex(parts[1..]);
      var tail := Flatten(parts[1..]);
      assert Flatten(parts) == parts[0] + tail;
    }
  }

  /** Every byte written for words in 0 .. 0xFFFF is a lowercase hex digit. */
  lemma HexDigitsInWords(ws: seq<int>)
    requires forall i :: 0 <= i < |ws| ==> 0 <= ws[i] <= 0xFFFF
    ensures IsLowerHex(WordsBytes(ws)) && AllDigits(WordsBytes(ws))
  {
    var parts := seq(|ws|, i requires 0 <= i < |ws| => IntToBytes(ws[i]));
    FlattenLowerHex(parts);
    LowerHexAreDigits(WordsBytes(ws));
  }

  /** Noise before the STX is returned with the frame, and the decoder then
      rejects the frame because its first byte is not STX. */
  lemma NoisyFrameRejected(noise: seq<Byte>, cmd: string, ws: seq<int>, rest: seq<Byte>)
    requires noise != [] && forall i :: 0 <= i < |noise| ==> noise[i] != STX
    requires |cmd| == 3 && IsAsciiText(cmd) && Lower(cmd) in DataSizes
    requires forall i :: 0 <= i < 3 ==> cmd[i] as int != ETX
    requires 4 * |ws| == DataSizes[Lower(cmd)]
    requires forall i :: 0 <= i < |ws| ==> 0 <= ws[i] <= 0xFFFF
    ensures Encode(cmd, Words(ws)).Success?
    ensures var n := |noise| + |Encode(cmd, Words(ws)).value|;
      && FrameLength(noise + Encode(cmd, Words(ws)).value + rest, AwaitingStart) == Some(n)
      && Decode((noise + Encode(cmd, Words(ws)).value + rest)[.. n]) == Failure(FrameBytesMismatch)
  {
    ReadEncodedFrame(cmd, ws, rest);
    NoiseBeforeFrame(noise, Encode(cmd, Words(ws)).value, rest);
  }

  /** Whatever frame `f` is, noise before it is read with it, and the
      response then fails the delimiter check. */
  lemma NoiseBeforeFrame(noise: seq<Byte>, f: seq<Byte>, rest: seq<Byte>)
    requires noise != [] && forall i :: 0 <= i < |noise| ==> noise[i] != STX
    requires FrameLength(f + rest, AwaitingStart) == Some(|f|)
    ensures FrameLength(noise + f + rest, AwaitingStart) == Some(|noise| + |f|)
    ensures Decode((noise + f + rest)[.. |noise| + |f|]) == Failure(FrameBytesMismatch)
  {
    assert noise + f + rest == noise + (f + rest);
    LeadingNoiseKept(noise, f + rest);
    var g := (noise + f + rest)[.. |noise| + |f|];
    assert g[0] == noise[0];
    StrayFirstByteRejected(g);
  }

  /** A response that does not start with STX fails the delimiter check. */
  lemma StrayFirstByteRejected(g: seq<Byte>)
    requires |g| >= 1 && g[0] != STX
    ensures Decode(g) == Failure(FrameBytesMismatch)
  {
    assert DecodeHeader(g) == Failure(FrameBytesMismatch);
  }
}

=== FILE: hex.dfy ===
/** Hexadecimal text as Python writes and reads it on this link:
    `"{0:04x}".format(v)` for data words, `"{0:02x}".format(c).upper()` for the
    checksum, `hex(n)[2:]` for the `pmt HBV` argument, and `int(s, 16)` to read
    any of them back. */
module Hex {
  import opened Wrappers
  import opened Bytes

  const ZERO: Byte := 0x30  // '0'
  const MINUS: Byte := 0x2D // '-'
  const PLUS: Byte := 0x2B  // '+'

  function LowerDigit(d: nat): (b: Byte)
    requires d < 16
  {
    if d < 10 then 0x30 + d else 0x61 + d - 10
  }

  function UpperDigit(d: nat): (b: Byte)
    requires d < 16
  {
    if d < 10 then 0x30 + d else 0x41 + d - 10
  }

  /** The value of one hexadecimal digit of either case, as `int(_, 16)` reads it. */
  function DigitValue(b: Byte): (r: Option<nat>)
    ensures r.Some? ==> r.value < 16
    ensures r.Some? ==> b != STX && b != ETX && b != CR && b < 128
  {
    if 0x30 <= b <= 0x39 then Some(b - 0x30)
    else if 0x61 <= b <= 0x66 then Some(b - 0x61 + 10)
    else if 0x41 <= b <= 0x46 then Some(b - 0x41 + 10)
    else None
  }

  lemma DigitRoundTrip(d: nat)
    requires d < 16
    ensures DigitValue(LowerDigit(d)) == Some(d)
    ensures DigitValue(UpperDigit(d)) == Some(d)
  {
  }

  predicate AllDigits(s: seq<Byte>) {
    forall i :: 0 <= i < |s| ==> DigitValue(s[i]).Some?
  }

  /** Only `0-9` and `a-f`: what Python's `x` format writes. */
  predicate IsLowerHex(s: seq<Byte>) {
    forall i :: 0 <= i < |s| ==> 0x30 <= s[i] <= 0x39 || 0x61 <= s[i] <= 0x66
  }

  lemma LowerHexAreDigits(s: seq<Byte>)
    requires IsLowerHex(s)
    ensures AllDigits(s)
  {
  }

  /** Big-endian value of a string of hexadecimal digits. */
  function Value(s: seq<Byte>): nat
    requires AllDigits(s)
  {
    if s == [] then 0 else Value(s[..|s| - 1]) * 16 + DigitValue(s[|s| - 1]).value
  }

  /** Shortest lowercase hexadecimal spelling of `n`, as `"{:x}".format(n)` and `hex(n)[2:]` give. */
  function HexDigits(n: nat): (s: seq<Byte>)
    ensures 1 <= |s| && AllDigits(s) && IsLowerHex(s)
    ensures s[0] != ZERO || n == 0
  {
    if n < 16 then [LowerDigit(n)] else HexDigits(n / 16) + [LowerDigit(n % 16)]
  }

  function Zeros(k: nat): (s: seq<Byte>)
    ensures |s| == k && AllDigits(s) && IsLowerHex(s)
  {
    seq(k, _ => ZERO)
  }

  /** The `0` fill of a format width: zeros in front of `s` up to `width` bytes. */
  function ZeroPad(s: seq<Byte>, width: nat): (r: seq<Byte>)
    ensures IsLowerHex(s) ==> IsLowerHex(r)
  {
    if |s| < width then Zeros(width - |s|) + s else s
  }

  /** `"{0:04x}".format(v)`: at least four characters, the sign counted in the width. */
  function IntToBytes(v: int): (r: seq<Byte>)
    ensures |r| >= 4
    ensures v >= 0 ==> IsLowerHex(r)
    ensures v < 0 ==> r[0] == MINUS && IsLowerHex(r[1..])
  {
    if v >= 0 then ZeroPad(HexDigits(v), 4) else [MINUS] + ZeroPad(HexDigits(-v), 3)
  }

  /** `"{0:02x}".format(c).upper()` for a checksum byte `c`. */
  function ChecksumText(c: nat): (r: seq<Byte>)
    requires c < 256
  {
    [UpperDigit(c / 16), UpperDigit(c % 16)]
  }

  /** `int(s, 16)`: an optional sign followed by one or more hexadecimal digits. */
  function ParseInt(s: seq<Byte>): (r: Option<int>)
    ensures r.Some? ==> |s| >= 1
    ensures r.Some? && s[0] != MINUS ==> r.value >= 0
  {
    if |s| >= 2 && s[0] == MINUS && AllDigits(s[1..]) then Some(-(Value(s[1..]) as int))
    else if |s| >= 2 && s[0] == PLUS && AllDigits(s[1..]) then Some(Value(s[1..]))
    else if |s| >= 1 && AllDigits(s) then Some(Value(s))
    else None
  }

  /** `int(s, 16)` accepts exactly a run of hex digits, optionally after
      one sign. */
  lemma ParseIntAccepts(s: seq<Byte>)
    ensures ParseInt(s).Some? <==>
      (|s| >= 1 && AllDigits(s)) ||
      (|s| >= 2 && (s[0] == MINUS || s[0] == PLUS) && AllDigits(s[1..]))
  {
  }

  function Pow16(k: nat): (p: nat)
    ensures p >= 1
  {
    if k == 0 then 1 else 16 * Pow16(k - 1)
  }

  lemma {:induction false} ValueOfHexDigits(n: nat)
    ensures Value(HexDigits(n)) == n
  {
    if n >= 16 {
      var s := HexDigits(n);
      assert s[..|s| - 1] == HexDigits(n / 16);
      ValueOfHexDigits(n / 16);
    }
  }

  lemma {:induction false} ValueIgnoresLeadingZeros(k: nat, s: seq<Byte>)
    requires AllDigits(s)
    ensures AllDigits(Zeros(k) + s) && Value(Zeros(k) + s) == Value(s)
  {
    var zs := Zeros(k) + s;
    assert AllDigits(zs) by {
      forall i | 0 <= i < |zs| ensures DigitValue(zs[i]).Some? {
        if i >= k { assert zs[i] == s[i - k]; }
      }
    }
    if s == [] {
      assert zs == Zeros(k);
      ZerosHaveNoValue(k);
    } else {
      assert zs[..|zs| - 1] == Zeros(k) + s[..|s| - 1];
      ValueIgnoresLeadingZeros(k, s[..|s| - 1]);
    }
  }

  lemma {:induction false} ZerosHaveNoValue(k: nat)
    ensures Value(Zeros(k)) == 0
  {
    if k > 0 {
      assert Zeros(k)[..k - 1] == Zeros(k - 1);
      ZerosHaveNoValue(k - 1);
    }
  }

  lemma {:induction false} HexDigitsLength(n: nat, w: nat)
    requires w >= 1
    ensures |HexDigits(n)| <= w <==> n < Pow16(w)
  {
    if n >= 16 && w > 1 {
      HexDigitsLength(n / 16, w - 1);
    } else if n >= 16 {
      assert Pow16(1) == 16;
    } else {
      assert Pow16(w) >= 16 by { PowMonotone(w); }
    }
  }

  lemma {:induction false} PowMonotone(w: nat)
    requires w >= 1
    ensures Pow16(w) >= 16
  {
    if w > 1 { PowMonotone(w - 1); }
  }

  /** Parsing a padded spelling of `n` gives back `n`. */
  lemma PaddedRoundTrip(n: nat, width: nat)
    ensures AllDigits(ZeroPad(HexDigits(n), width))
    ensures |ZeroPad(HexDigits(n), width)| >= 1
    ensures Value(ZeroPad(HexDigits(n), width)) == n
    ensures ZeroPad(HexDigits(n), width)[0] != MINUS && ZeroPad(HexDigits(n), width)[0] != PLUS
  {
    var s := HexDigits(n);
    ValueOfHexDigits(n);
    if |s| < width {
      ValueIgnoresLeadingZeros(width - |s|, s);
    }
  }

  /** Reading back what `"{0:04x}"` wrote gives the original integer, negative ones included. */
  lemma IntToBytesRoundTrip(v: int)
    ensures ParseInt(IntToBytes(v)) == Some(v)
  {
    var r := IntToBytes(v);
    if v >= 0 {
      var t := ZeroPad(HexDigits(v), 4);
      assert r == t;
      PaddedRoundTrip(v, 4);
      assert t[0] != MINUS && t[0] != PLUS;
      assert ParseInt(t) == Some(Value(t));
    } else {
      var t := ZeroPad(HexDigits(-v), 3);
      assert r == [MINUS] + t;
      assert r[1..] == t;
      PaddedRoundTrip(-v, 3);
      assert ParseInt(r) == Some(-(Value(t) as int));
    }
  }

  /** A data word takes exactly the four bytes the catalog reserves for it
      precisely when it lies in -0xFFF .. 0xFFFF. */
  lemma IntToBytesLength(v: int)
    ensures |IntToBytes(v)| >= 4
    ensures |IntToBytes(v)| == 4 <==> -0xFFF <= v <= 0xFFFF
    ensures 0 <= v <= 0xFFFF ==> AllDigits(IntToBytes(v)) && IsLowerHex(IntToBytes(v))
  {
    if v >= 0 {
      HexDigitsLength(v, 4);
      assert Pow16(4) == 0x10000;
      PaddedRoundTrip(v, 4);
    } else {
      HexDigitsLength(-v, 3);
      assert Pow16(3) == 0x1000;
    }
  }

  /** The checksum text is two uppercase digits that read back as the checksum. */
  lemma ChecksumRoundTrip(c: nat)
    requires c < 256
    ensures |ChecksumText(c)| == 2 && AllDigits(ChecksumText(c))
    ensures ParseInt(ChecksumText(c)) == Some(c)
  {
    var t := ChecksumText(c);
    DigitRoundTrip(c / 16);
    DigitRoundTrip(c % 16);
    assert t[..1] == [UpperDigit(c / 16)];
    assert t[..1][..0] == [];
    assert Value(t[..1]) == c / 16;
    assert Value(t) == (c / 16) * 16 + c % 16;
  }
}

=== FILE: power.dfy ===
/** The power-function word of the HSC command: bit 0 is the over-current
    protection function, bit 1 the output-voltage control function. */
module PowerFunction {
  import opened Wrappers

  datatype OverCurrentProtection = AutomaticRestoration | NotInUse | OcpResponseError
  datatype OutputVoltageControl = Effectiveness | Invalid | OvcResponseError

  /** `readPowerFunction`'s table from the status word to the two fields;
      any word outside 0 .. 3 reads "Error in Response Data" for both. */
  function DecodePowerFunction(status: int): (r: (OverCurrentProtection, OutputVoltageControl))
    ensures r.0.OcpResponseError? <==> !(0 <= status <= 3)
    ensures r.1.OvcResponseError? <==> !(0 <= status <= 3)
    ensures 0 <= status <= 3 ==> (r.0.AutomaticRestoration? <==> status % 2 == 1)
    ensures 0 <= status <= 3 ==> (r.1.Effectiveness? <==> status / 2 == 1)
  {
    if status == 3 then (AutomaticRestoration, Effectiveness)
    else if status == 1 then (AutomaticRestoration, Invalid)
    else if status == 2 then (NotInUse, Effectiveness)
    else if status == 0 then (NotInUse, Invalid)
    else (OcpResponseError, OvcResponseError)
  }

  /** The HSC code that `setOverCurrentProtection(on)` sends after reading
      the output-voltage control field; `None` when that field could not be
      read, in which case nothing is sent. The code switches the protection
      as asked and keeps the field that was read. */
  function OverCurrentProtectionCode(on: bool, ovc: OutputVoltageControl): (r: Option<int>)
    ensures r.Some? <==> !ovc.OvcResponseError?
    ensures r.Some? ==> 0 <= r.value <= 3
    ensures r.Some? ==> DecodePowerFunction(r.value) == (if on then AutomaticRestoration else NotInUse, ovc)
  {
    match ovc
    case Effectiveness => Some(if on then 3 else 2)
    case Invalid => Some(if on then 1 else 0)
    case OvcResponseError => None
  }

  /** The HSC code that `setOutputVoltageControlFunction(on)` sends after
      reading the over-current protection field, with the same guarantees. */
  function OutputVoltageControlCode(on: bool, ocp: OverCurrentProtection): (r: Option<int>)
    ensures r.Some? <==> !ocp.OcpResponseError?
    ensures r.Some? ==> 0 <= r.value <= 3
    ensures r.Some? ==> DecodePowerFunction(r.value) == (ocp, if on then Effectiveness else Invalid)
  {
    match ocp
    case AutomaticRestoration => Some(if on then 3 else 1)
    case NotInUse => Some(if on then 2 else 0)
    case OcpResponseError => None
  }

  /** Toggling one field from any readable status word leaves the other field as it was. */
  lemma ToggleKeepsOtherField(status: int, on: bool)
    requires 0 <= status <= 3
    ensures var (ocp, ovc) := DecodePowerFunction(status);
      && OverCurrentProtectionCode(on, ovc).Some?
      && DecodePowerFunction(OverCurrentProtectionCode(on, ovc).value).1 == ovc
      && OutputVoltageControlCode(on, ocp).Some?
      && DecodePowerFunction(OutputVoltageControlCode(on, ocp).value).0 == ocp
  {
  }

  /** Writing back the field a word was read with reproduces the word. */
  lemma ToggleToCurrentIsIdentity(status: int)
    requires 0 <= status <= 3
    ensures var (ocp, ovc) := DecodePowerFunction(status);
      && OverCurrentProtectionCode(ocp.AutomaticRestoration?, ovc) == Some(status)
      && OutputVoltageControlCode(ovc.Effectiveness?, ocp) == Some(status)
  {
  }
}

=== FILE: scintillator.dfy ===
/** The ASCII `pmt ...` command path to the scintillator's microcontroller:
    the `Scintillator` class of utils/scintillator.py, its near copy
    `scintillator` in scint_commands.py (whose `getStatus` asserts five words
    instead of falling back to -1), and the helper functions of
    utils/not-needed/scint_commands_2.py (`getHPO`, `commandHandler`). The
    serial line is `written`, every byte sent so far, and `windows`, what the
    microcontroller sends back within the one-second window after each
    command. */
module Scintillator {
  import opened Wrappers
  import opened Bytes
  import opened Hex
  import opened Chunks
  import opened FrameCodec
  import opened Units
  import opened StatusBits
  import Utf8

  /** The Python exceptions this path lets escape. */
  datatype PmtError =
    | CommandNotAscii         // UnicodeEncodeError while writing a command character
    | ResponseNotAscii        // UnicodeDecodeError while decoding a response group
    | NotHex                  // ValueError from `int(_, 16)`
    | WrongWordCount(count: nat) // AssertionError of `assert len(data)==5`
    | VoltageOutOfRange       // ValueError raised by `set_HV`
    | NoneConcatenated        // TypeError: `str + None` after a failed decode

  // ---------------------------------------------------------------------------
  // Parsing the HPO reply

  /** `b''.join(response[byte] for byte in range(99, len(response)-8))`. */
  function HpoSlice(response: seq<Byte>): seq<Byte> {
    if |response| - 8 > 99 then response[99 .. |response| - 8] else []
  }

  /** `int(byte.decode("ascii"), 16)` of one group. */
  function GroupWord(g: seq<Byte>): (r: Result<int, PmtError>)
    ensures r.Success? <==> ParseInt(g).Some?
    ensures r.Success? ==> r.value == ParseInt(g).value
    ensures r.Failure? ==> r.error == (if IsAscii(g) then NotHex else ResponseNotAscii)
  {
    if !IsAscii(g) then Failure(ResponseNotAscii)
    else match ParseInt(g)
      case None => Failure(NotHex)
      case Some(v) => Success(v)
  }

  /** The list comprehension over the groups: the first group that fails raises. */
  function ParseGroups(gs: seq<seq<Byte>>): (r: Result<seq<int>, PmtError>)
    ensures r.Success? <==> forall i :: 0 <= i < |gs| ==> ParseInt(gs[i]).Some?
    ensures r.Success? ==> |r.value| == |gs| && forall i :: 0 <= i < |gs| ==> ParseInt(gs[i]) == Some(r.value[i])
    ensures r.Failure? ==> r.error.ResponseNotAscii? || r.error.NotHex?
  {
    if gs == [] then Success([])
    else match GroupWord(gs[0])
      case Failure(e) => Failure(e)
      case Success(w) =>
        match ParseGroups(gs[1..])
        case Failure(e) => Failure(e)
        case Success(ws) => Success([w] + ws)
  }

  /** The words of an HPO reply: bytes 99 .. len-9 read as 4-character hex groups. */
  function HpoWords(response: seq<Byte>): (r: Result<seq<int>, PmtError>)
    ensures |response| <= 107 ==> r == Success([])
    ensures r.Success? ==> |r.value| == (|HpoSlice(response)| + 3) / 4
    ensures r.Success? ==> forall i :: 0 <= i < |r.value| ==>
              ParseInt(Separate(HpoSlice(response))[i]) == Some(r.value[i])
  {
    ParseGroups(Separate(HpoSlice(response)))
  }

  /** A reply that carries words `ws` (each written as four hex digits) after
      99 bytes of preamble and before 8 bytes of trailer is read back as `ws`. */
  lemma HpoWordsRoundTrip(preamble: seq<Byte>, ws: seq<int>, trailer: seq<Byte>)
    requires |preamble| == 99 && |trailer| == 8
    requires forall i :: 0 <= i < |ws| ==> 0 <= ws[i] <= 0xFFFF
    ensures HpoWords(preamble + WordsBytes(ws) + trailer) == Success(ws)
  {
    var data := WordsBytes(ws);
    HexWordsRoundTrip(ws);
    var response := preamble + data + trailer;
    if |data| > 0 {
      assert HpoSlice(response) == data;
    } else {
      assert HpoSlice(response) == [] == data;
    }
    var r := ParseGroups(Separate(data));
    assert r.Success?;
    assert r.value == ws;
  }

  /** Only bytes 99 .. len-9 matter: two replies of the same length that agree
      there are read the same way. */
  lemma HpoWordsReadOnlySlice(a: seq<Byte>, b: seq<Byte>)
    requires |a| == |b|
    requires forall i :: 99 <= i < |a| - 8 ==> a[i] == b[i]
    ensures HpoWords(a) == HpoWords(b)
  {
    assert HpoSlice(a) == HpoSlice(b);
  }

  /** What the five HPO words stand for. */
  datatype HpoReading = HpoReading(status: StatusFlags, voSet: real, voMon: real, ioMon: real, tMon: real)

  function Reading(data: seq<int>): HpoReading
    requires |data| == 5
  {
    HpoReading(HVStatus(data[0]), ToVoltage(data[1]), ToVoltage(data[2]), ToCurrent(data[3]), ToTemperature(data[4] as real))
  }

  /** `getHPO` of the function-style script, and `getStatus` of the
      scint_commands.py class: exactly five words, or the assertion fails. */
  function StrictHpo(response: seq<Byte>): (r: Result<HpoReading, PmtError>)
    ensures HpoWords(response).Failure? ==> r == Failure(HpoWords(response).error)
    ensures HpoWords(response).Success? && |HpoWords(response).value| != 5 ==>
              r == Failure(WrongWordCount(|HpoWords(response).value|))
    ensures r.Success? <==> HpoWords(response).Success? && |HpoWords(response).value| == 5
  {
    match HpoWords(response)
    case Failure(e) => Failure(e)
    case Success(data) =>
      if |data| != 5 then Failure(WrongWordCount(|data|)) else Success(Reading(data))
  }

  /** A reply carrying five words is read as those words converted. */
  lemma StrictHpoReadsWords(preamble: seq<Byte>, ws: seq<int>, trailer: seq<Byte>)
    requires |preamble| == 99 && |trailer| == 8 && |ws| == 5
    requires forall i :: 0 <= i < 5 ==> 0 <= ws[i] <= 0xFFFF
    ensures StrictHpo(preamble + WordsBytes(ws) + trailer) == Success(HpoReading(
      HVStatus(ws[0]), ToVoltage(ws[1]), ToVoltage(ws[2]), ToCurrent(ws[3]), ToTemperature(ws[4] as real)))
  {
    HpoWordsRoundTrip(preamble, ws, trailer);
  }

  // ---------------------------------------------------------------------------
  // The status dictionary of utils/scintillator.py

  /** The values a status dictionary holds. */
  datatype Value = Flag(flag: bool) | Int(i: int) | Real(x: real) | Str(text: string)

  const FlagKeys: seq<string> := [
    "high_voltage_on", "overcurrent_protection", "current_in_specification",
    "sensor_connected", "sensor_in_specification", "temperature_conversion_effective"]

  const StatusKeys: seq<string> := ["channel", "serial port"] + FlagKeys + ["vo_set", "vo_mon", "io_mon", "T_mon"]

  /** The dictionary `HVStatus` returns, in insertion order. */
  function FlagEntries(f: StatusFlags): (d: seq<(string, Value)>)
    ensures |d| == 6 && forall j :: 0 <= j < 6 ==> d[j].0 == FlagKeys[j]
  {
    [("high_voltage_on", Flag(f.highVoltageOn)),
     ("overcurrent_protection", Flag(f.overcurrentProtection)),
     ("current_in_specification", Flag(f.currentInSpecification)),
     ("sensor_connected", Flag(f.sensorConnected)),
     ("sensor_in_specification", Flag(f.sensorInSpecification)),
     ("temperature_conversion_effective", Flag(f.temperatureConversionEffective))]
  }

  /** The flag entries after the fallback loop has overwritten each with -1. */
  function UnavailableFlags(): (d: seq<(string, Value)>)
    ensures |d| == 6 && forall j :: 0 <= j < 6 ==> d[j].0 == FlagKeys[j]
  {
    seq(6, j requires 0 <= j < 6 => (FlagKeys[j], Int(-1)))
  }

  function StatusDict(channel: int, port: string, flags: seq<(string, Value)>,
                      voSet: Value, voMon: Value, ioMon: Value, tMon: Value): (d: seq<(string, Value)>)
    requires |flags| == 6 && forall j :: 0 <= j < 6 ==> flags[j].0 == FlagKeys[j]
    ensures |d| == 12 && forall j :: 0 <= j < 12 ==> d[j].0 == StatusKeys[j]
    ensures d[0] == ("channel", Int(channel)) && d[1] == ("serial port", Str(port)) && d[2..8] == flags
  {
    [("channel", Int(channel)), ("serial port", Str(port))] + flags
      + [("vo_set", voSet), ("vo_mon", voMon), ("io_mon", ioMon), ("T_mon", tMon)]
  }

  /** `Scintillator.getStatus` on the reply `response`. */
  function StatusEntries(channel: int, port: string, response: seq<Byte>): (r: Result<seq<(string, Value)>, PmtError>)
    ensures r.Success? <==> HpoWords(response).Success?
    ensures r.Success? ==> |r.value| == 12 && forall j :: 0 <= j < 12 ==> r.value[j].0 == StatusKeys[j]
    ensures r.Success? ==> r.value[0] == ("channel", Int(channel)) && r.value[1] == ("serial port", Str(port))
  {
    match HpoWords(response)
    case Failure(e) => Failure(e)
    case Success(data) =>
      if |data| == 5 then
        var rd := Reading(data);
        Success(StatusDict(channel, port, FlagEntries(rd.status), Real(rd.voSet), Real(rd.voMon), Real(rd.ioMon), Real(rd.tMon)))
      else Success(StatusDict(channel, port, UnavailableFlags(), Int(-1), Int(-1), Int(-1), Int(-1)))
  }

  /** The dictionary always has the same twelve keys in the same order, and a
      reply is parsed exactly when the strict variant parses it; where the
      strict variant reads five words the entries carry them, and where it
      fails its assertion every entry but the channel and port is -1. */
  lemma StatusEntriesAgreeWithStrict(channel: int, port: string, response: seq<Byte>)
    ensures var r := StatusEntries(channel, port, response);
      && (r.Success? <==> HpoWords(response).Success?)
      && (r.Failure? ==> StrictHpo(response) == Failure(r.error))
      && (r.Success? ==> |r.value| == 12 && forall j :: 0 <= j < 12 ==> r.value[j].0 == StatusKeys[j])
      && (r.Success? ==> r.value[0] == ("channel", Int(channel)) && r.value[1] == ("serial port", Str(port)))
      && (StrictHpo(response).Success? ==>
            var rd := StrictHpo(response).value;
            r == Success(StatusDict(channel, port, FlagEntries(rd.status),
                                    Real(rd.voSet), Real(rd.voMon), Real(rd.ioMon), Real(rd.tMon))))
      && (StrictHpo(response).Failure? && StrictHpo(response).error.WrongWordCount? ==>
            r.Success? && forall j :: 2 <= j < 12 ==> r.value[j].1 == Int(-1))
  {
    match HpoWords(response)
    case Failure(e) =>
    case Success(data) =>
      var r := StatusEntries(channel, port, response).value;
      if |data| == 5 {
        assert forall j :: 0 <= j < 12 ==> r[j].0 == StatusKeys[j];
      } else {
        assert forall j :: 0 <= j < 12 ==> r[j].0 == StatusKeys[j];
      }
  }

  // ---------------------------------------------------------------------------
  // Commands and replies as text

  /** `_bytes_to_string` / `bytes_to_string` of the two classes: ASCII, with
      `None` for the decode error they catch. */
  function BytesToString(s: seq<Byte>): (r: Option<string>)
    ensures r.Some? <==> IsAscii(s)
    ensures r.Some? ==> |r.value| == |s| && IsAsciiText(r.value) && AsciiBytes(r.value) == s
  {
    if IsAscii(s) then
      var t := AsciiText(s);
      assert AsciiBytes(t) == s;
      Some(t)
    else None
  }

  /** The UTF-8 `bytes_to_string` of the function-style script accepts every
      reply the ASCII one does, with the same text, and more besides. */
  lemma DecodersAgreeOnAscii(s: seq<Byte>)
    ensures BytesToString(s).Some? ==> Utf8.Decode(s) == BytesToString(s)
    ensures BytesToString([0xC3, 0xA9]) == None && Utf8.Decode([0xC3, 0xA9]) == Some("é")
  {
    if IsAscii(s) {
      Utf8.DecodeAscii(s);
    }
    var e: seq<Byte> := [0xC3, 0xA9];
    assert !IsAscii(e) by { assert e[0] >= 128; }
    assert Utf8.FirstChar(e) == Some(('é', 2));
    assert e[2..] == [];
    assert Utf8.Decode(e[2..]) == Some([]);
    assert Utf8.Decode(e) == Some(['é'] + []);
    assert ['é'] + [] == "é";
  }

  /** Python's `s[i:j]` for `0 <= i <= j`: both ends clamp to the length. */
  function Slice(s: seq<Byte>, i: nat, j: nat): (r: seq<Byte>)
    requires i <= j
    ensures |r| <= j - i
    ensures |s| >= j ==> r == s[i..j]
  {
    s[Min(i, |s|) .. Min(j, |s|)]
  }

  /** `get_MC_status`: two ASCII fields of the reply to `status\r`. */
  function McStatus(response: seq<Byte>): (r: Result<string, PmtError>)
    ensures r.Success? <==> IsAscii(Slice(response, 8, 17)) && IsAscii(Slice(response, 19, 27))
    ensures r.Failure? ==> r.error == NoneConcatenated
    ensures r.Success? ==>
      r.value == "Microcontroller Status: " + AsciiText(Slice(response, 8, 17)) + ", " + AsciiText(Slice(response, 19, 27))
  {
    match (BytesToString(Slice(response, 8, 17)), BytesToString(Slice(response, 19, 27)))
    case (Some(a), Some(b)) => Success("Microcontroller Status: " + a + ", " + b)
    case _ => Failure(NoneConcatenated)
  }

  /** The status text splits back into its parts: the fixed prefix, the
      first field, `", "` and the second field, each field encoding back to
      the reply bytes it was read from. */
  lemma McStatusFields(response: seq<Byte>)
    requires McStatus(response).Success?
    ensures var t := McStatus(response).value;
      var a := Slice(response, 8, 17);
      var b := Slice(response, 19, 27);
      && IsAsciiText(t) && |t| == 26 + |a| + |b|
      && t[..24] == "Microcontroller Status: " && t[24 + |a| .. 26 + |a|] == ", "
      && IsAsciiText(t[24 .. 24 + |a|]) && AsciiBytes(t[24 .. 24 + |a|]) == a
      && IsAsciiText(t[26 + |a| ..]) && AsciiBytes(t[26 + |a| ..]) == b
  {
    var a := Slice(response, 8, 17);
    var b := Slice(response, 19, 27);
    var ta := AsciiText(a);
    var tb := AsciiText(b);
    var t := McStatus(response).value;
    assert t == "Microcontroller Status: " + ta + ", " + tb;
    assert t[24 .. 24 + |a|] == ta;
    assert t[26 + |a| ..] == tb;
    assert AsciiBytes(ta) == a;
    assert AsciiBytes(tb) == b;
  }

  /** `hex(int(voltage / factor))[2:]` in `set_HV`, as text. */
  function HexText(n: nat): (t: string)
    ensures IsAsciiText(t) && AsciiBytes(t) == HexDigits(n)
    ensures forall i :: 0 <= i < |t| ==> '0' <= t[i] <= '9' || 'a' <= t[i] <= 'f'
  {
    var d := HexDigits(n);
    var t := AsciiText(d);
    assert AsciiBytes(t) == d;
    t
  }

  /** `set_HV`'s range check and the command it sends. */
  function SetHVCommand(voltage: real): (r: Result<string, PmtError>)
    ensures r.Success? <==> 40.0 <= voltage <= 60.0
    ensures r.Failure? ==> r.error == VoltageOutOfRange
  {
    if voltage < 40.0 || voltage > 60.0 then Failure(VoltageOutOfRange)
    else
      assert Trunc(voltage / VoltageFactor) >= 0;
      Success("pmt HBV" + HexText(Trunc(voltage / VoltageFactor)) + "\r")
  }

  /** Every accepted voltage is sent as `pmt HBV`, exactly four lowercase hex
      digits and CR; the digits read back as the raw word, which lies in
      22075 .. 33112 and is the largest word whose voltage does not exceed the
      request. */
  lemma SetHVCommandShape(voltage: real)
    requires 40.0 <= voltage <= 60.0
    ensures var raw := Trunc(voltage / VoltageFactor);
      var c := SetHVCommand(voltage).value;
      && 22075 <= raw <= 33112
      && ToVoltage(raw) <= voltage < ToVoltage(raw + 1)
      && |c| == 12 && c[..7] == "pmt HBV" && c[11] == '\r'
      && IsAsciiText(c[7..11]) && ParseInt(AsciiBytes(c[7..11])) == Some(raw)
      && forall i :: 7 <= i < 11 ==> '0' <= c[i] <= '9' || 'a' <= c[i] <= 'f'
  {
    var x := voltage / VoltageFactor;
    var raw := Trunc(x);
    assert x * VoltageFactor == voltage;
    assert 22075.0 < x < 33113.0;
    HexDigitsLength(raw, 4);
    HexDigitsLength(raw, 3);
    var d := HexDigits(raw);
    assert |d| == 4;
    var c := SetHVCommand(voltage).value;
    assert c[7..11] == HexText(raw);
    ValueOfHexDigits(raw);
    assert d[0] != MINUS && d[0] != PLUS;
  }

  /** What `commandHandler` returns: the `getHPO` dictionary, a message, or `None`. */
  datatype Handled = Monitor(reading: HpoReading) | Message(text: string) | NoReply

  /** `commandHandler(command, response)` of the function-style script. */
  function CommandHandler(command: string, response: seq<Byte>): (r: Result<Handled, PmtError>)
    ensures command == "pmt HPO\r" ==>
      r == (match StrictHpo(response) case Success(rd) => Success(Monitor(rd)) case Failure(e) => Failure(e))
    ensures command == "pmt HON\r" ==> r == Success(Message("High Voltage On!"))
    ensures command == "pmt HOF\r" ==> r == Success(Message("High Voltage Off!"))
    ensures command != "status\r" && command != "pmt HPO\r" && |command| >= 7 && command[..7] == "pmt HBV" ==>
      r == Success(Message("High Voltage Set!"))
    ensures command == "status\r" ==>
      (r.Success? <==> Utf8.Decode(Slice(response, 8, 17)).Some? && Utf8.Decode(Slice(response, 19, 27)).Some?)
    ensures command == "status\r" && r.Success? ==>
      r.value == Message(Utf8.Decode(Slice(response, 8, 17)).value + ", " + Utf8.Decode(Slice(response, 19, 27)).value)
    ensures command == "status\r" && r.Failure? ==> r.error == NoneConcatenated
    ensures command !in {"pmt HPO\r", "pmt HON\r", "pmt HOF\r", "status\r"} && !(|command| >= 7 && command[..7] == "pmt HBV") ==>
      r == Success(NoReply)
  {
    if command == "pmt HPO\r" then
      match StrictHpo(response)
      case Success(rd) => Success(Monitor(rd))
      case Failure(e) => Failure(e)
    else if command == "pmt HON\r" then Success(Message("High Voltage On!"))
    else if command == "pmt HOF\r" then Success(Message("High Voltage Off!"))
    else if command == "status\r" then
      match (Utf8.Decode(Slice(response, 8, 17)), Utf8.Decode(Slice(response, 19, 27)))
      case (Some(a), Some(b)) => Success(Message(a + ", " + b))
      case _ => Failure(NoneConcatenated)
    else if |command| >= 7 && command[..7] == "pmt HBV" then Success(Message("High Voltage Set!"))
    else Success(NoReply)
  }

  /** The command `set_HV` sends is one `commandHandler` acknowledges. */
  lemma SetHVCommandHandled(voltage: real, response: seq<Byte>)
    requires 40.0 <= voltage <= 60.0
    ensures CommandHandler(SetHVCommand(voltage).value, response) == Success(Message("High Voltage Set!"))
  {
    SetHVCommandShape(voltage);
    var c := SetHVCommand(voltage).value;
    assert c != "status\r" && c != "pmt HPO\r" && c != "pmt HON\r" && c != "pmt HOF\r" by {
      assert |c| == 12;
    }
  }

  // ---------------------------------------------------------------------------
  // The class

  predicate IsDecimal(t: string) {
    forall i :: 0 <= i < |t| ==> '0' <= t[i] <= '9'
  }

  /** The number a string of decimal digits denotes. */
  function DecimalValue(t: string): nat
    requires IsDecimal(t)
  {
    if t == [] then 0 else DecimalValue(t[..|t| - 1]) * 10 + (t[|t| - 1] as int - '0' as int)
  }

  /** `str(n)`: the decimal digits of `n` without leading zeros, after a
      minus sign when `n` is negative. */
  function DecimalText(n: int): (t: string)
    ensures n >= 0 ==> |t| >= 1 && IsDecimal(t) && DecimalValue(t) == n && (t[0] != '0' || n == 0)
    ensures n < 0 ==> |t| >= 2 && t[0] == '-' && IsDecimal(t[1..]) && DecimalValue(t[1..]) == -n && t[1] != '0'
    decreases if n < 0 then 1 - n else n
  {
    if n < 0 then
      var d := DecimalText(-n);
      assert ("-" + d)[1..] == d;
      "-" + d
    else if n < 10 then [(0x30 + n) as char]
    else
      var d := DecimalText(n / 10);
      var t := d + [(0x30 + n % 10) as char];
      assert t[..|t| - 1] == d;
      t
  }

  const DeviceIdPrefix: string := "/dev/serial/by-id/usb-FTDI_USB-COM485_Plus4_FT4J7CE9-if0"

  /** The by-id device path the constructor falls back to: the FTDI prefix,
      `str(scint_number - 1)` and `-port0`. */
  function DefaultPort(scintNumber: int): (p: string)
    ensures |p| >= |DeviceIdPrefix| + 7
    ensures p[..|DeviceIdPrefix|] == DeviceIdPrefix && p[|p| - 6..] == "-port0"
    ensures var channel := p[|DeviceIdPrefix| .. |p| - 6];
      && (scintNumber >= 1 ==> IsDecimal(channel) && DecimalValue(channel) == scintNumber - 1)
      && (scintNumber < 1 ==> channel[0] == '-' && IsDecimal(channel[1..]) && DecimalValue(channel[1..]) == 1 - scintNumber)
  {
    var d := DecimalText(scintNumber - 1);
    var p := DeviceIdPrefix + d + "-port0";
    assert p[..|DeviceIdPrefix|] == DeviceIdPrefix;
    assert p[|DeviceIdPrefix| .. |p| - 6] == d;
    p
  }

  /** The bytes `sendCommand` manages to write: the characters up to the first
      one ASCII cannot encode. */
  function SentBytes(t: string): (s: seq<Byte>)
    ensures |s| <= |t| && IsAsciiText(t[..|s|]) && s == AsciiBytes(t[..|s|])
    ensures |s| < |t| ==> t[|s|] as int >= 128
    ensures IsAsciiText(t) ==> s == AsciiBytes(t)
  {
    if t == [] then []
    else if t[0] as int < 128 then
      var rest := SentBytes(t[1..]);
      var s := [t[0] as int] + rest;
      assert t[..|s|] == [t[0]] + t[1..][..|rest|];
      AsciiBytesCons(t[0], t[1..][..|rest|]);
      s
    else []
  }

  /** `SentBytes` stops at the first character that is not ASCII. */
  lemma {:induction false} SentBytesStopAt(t: string, i: nat)
    requires i < |t| && IsAsciiText(t[..i]) && t[i] as int >= 128
    ensures SentBytes(t) == AsciiBytes(t[..i])
  {
    if i > 0 {
      assert t[..i][0] == t[0];
      assert t[1..][..i - 1] == t[..i][1..];
      SentBytesStopAt(t[1..], i - 1);
      assert AsciiBytes(t[..i]) == [t[0] as int] + AsciiBytes(t[1..][..i - 1]);
    }
  }

  function NextWindow(windows: seq<seq<Byte>>): seq<Byte> {
    if windows == [] then [] else windows[0]
  }

  function LaterWindows(windows: seq<seq<Byte>>): seq<seq<Byte>> {
    if windows == [] then [] else windows[1..]
  }

  class Scintillator {
    const channel: int
    const port: string
    var written: seq<Byte>
    var windows: seq<seq<Byte>>

    /** `Scintillator(scint_number, serial_port)`; `device` is what the
        microcontroller will send back after each command. */
    constructor (scintNumber: int, serialPort: Option<string>, device: seq<seq<Byte>>)
      ensures channel == scintNumber
      ensures port == if serialPort.Some? then serialPort.value else DefaultPort(scintNumber)
      ensures written == [] && windows == device
    {
      channel := scintNumber;
      port := if serialPort.Some? then serialPort.value else DefaultPort(scintNumber);
      written := [];
      windows := device;
    }

    /** `sendCommand`: write the command one ASCII character at a time, then
        collect what arrives in the following window. */
    method SendCommand(command: string) returns (r: Result<seq<Byte>, PmtError>)
      modifies this
      ensures written == old(written) + SentBytes(command)
      ensures IsAsciiText(command) ==> r == Success(NextWindow(old(windows))) && windows == LaterWindows(old(windows))
      ensures !IsAsciiText(command) ==> r == Failure(CommandNotAscii) && windows == old(windows)
    {
      var i := 0;
      while i < |command|
        invariant 0 <= i <= |command|
        invariant IsAsciiText(command[..i])
        invariant written == old(written) + AsciiBytes(command[..i])
        invariant windows == old(windows)
      {
        if command[i] as int >= 128 {
          SentBytesStopAt(command, i);
          return Failure(CommandNotAscii);
        }
        assert command[..i + 1] == command[..i] + [command[i]];
        written := written + [command[i] as int];
        i := i + 1;
      }
      assert command[..i] == command;
      var response := NextWindow(windows);
      windows := LaterWindows(windows);
      return Success(response);
    }

    /** `getStatus` of utils/scintillator.py, with the -1 fallback. */
    method GetStatus() returns (r: Result<seq<(string, Value)>, PmtError>)
      modifies this
      ensures written == old(written) + AsciiBytes("pmt HPO\r") && windows == LaterWindows(old(windows))
      ensures r == StatusEntries(channel, port, NextWindow(old(windows)))
    {
      assert IsAsciiText("pmt HPO\r");
      var response := SendCommand("pmt HPO\r");
      var data := HpoWords(response.value);
      if data.Failure? {
        return Failure(data.error);
      }
      var d := data.value;
      if |d| == 5 {
        var rd := Reading(d);
        return Success(StatusDict(channel, port, FlagEntries(rd.status), Real(rd.voSet), Real(rd.voMon), Real(rd.ioMon), Real(rd.tMon)));
      }
      var status := MarkUnavailable(FlagEntries(HVStatus(0)));
      return Success(StatusDict(channel, port, status, Int(-1), Int(-1), Int(-1), Int(-1)));
    }

    /** The fallback loop of `getStatus`: every entry of the flag
        dictionary is set to -1, its keys kept. */
    static method MarkUnavailable(flags: seq<(string, Value)>) returns (r: seq<(string, Value)>)
      requires |flags| == 6 && forall j :: 0 <= j < 6 ==> flags[j].0 == FlagKeys[j]
      ensures r == UnavailableFlags()
    {
      r := flags;
      var k := 0;
      while k < |r|
        invariant 0 <= k <= |r| == 6
        invariant forall j :: 0 <= j < 6 ==> r[j].0 == FlagKeys[j]
        invariant forall j :: 0 <= j < k ==> r[j].1 == Int(-1)
      {
        r := r[k := (r[k].0, Int(-1))];
        k := k + 1;
      }
    }

    /** `getStatus` of scint_commands.py: five words or the assertion fails. */
    method GetStatusStrict() returns (r: Result<HpoReading, PmtError>)
      modifies this
      ensures written == old(written) + AsciiBytes("pmt HPO\r") && windows == LaterWindows(old(windows))
      ensures r == StrictHpo(NextWindow(old(windows)))
    {
      assert IsAsciiText("pmt HPO\r");
      var response := SendCommand("pmt HPO\r");
      var data := HpoWords(response.value);
      if data.Failure? {
        return Failure(data.error);
      }
      if |data.value| != 5 {
        return Failure(WrongWordCount(|data.value|));
      }
      return Success(Reading(data.value));
    }

    method HVOn() returns (r: string)
      modifies this
      ensures written == old(written) + AsciiBytes("pmt HON\r") && windows == LaterWindows(old(windows))
      ensures r == "High Voltage On!"
    {
      assert IsAsciiText("pmt HON\r");
      var _ := SendCommand("pmt HON\r");
      return "High Voltage On!";
    }

    method HVOff() returns (r: string)
      modifies this
      ensures written == old(written) + AsciiBytes("pmt HOF\r") && windows == LaterWindows(old(windows))
      ensures r == "High Voltage Off!"
    {
      assert IsAsciiText("pmt HOF\r");
      var _ := SendCommand("pmt HOF\r");
      return "High Voltage Off!";
    }

    /** `set_HV`: validate, then send `pmt HBV<hex>\r`; nothing is written for
        a voltage outside 40 .. 60. */
    method SetHV(voltage: real) returns (r: Result<(), PmtError>)
      modifies this
      ensures SetHVCommand(voltage).Failure? ==>
        r == Failure(VoltageOutOfRange) && written == old(written) && windows == old(windows)
      ensures SetHVCommand(voltage).Success? ==>
        && IsAsciiText(SetHVCommand(voltage).value) && r == Success(())
        && written == old(written) + AsciiBytes(SetHVCommand(voltage).value)
        && windows == LaterWindows(old(windows))
    {
      if voltage < 40.0 || voltage > 60.0 {
        return Failure(VoltageOutOfRange);
      }
      SetHVCommandShape(voltage);
      var command := "pmt HBV" + HexText(Trunc(voltage / VoltageFactor)) + "\r";
      assert IsAsciiText(command) by {
        assert command == "pmt HBV" + command[7..11] + "\r";
      }
      var _ := SendCommand(command);
      return Success(());
    }

    /** `get_MC_status`. */
    method GetMcStatus() returns (r: Result<string, PmtError>)
      modifies this
      ensures written == old(written) + AsciiBytes("status\r") && windows == LaterWindows(old(windows))
      ensures r == McStatus(NextWindow(old(windows)))
    {
      assert IsAsciiText("status\r");
      var response := SendCommand("status\r");
      var first := BytesToString(Slice(response.value, 8, 17));
      var second := BytesToString(Slice(response.value, 19, 27));
      if first.None? || second.None? {
        return Failure(NoneConcatenated);
      }
      return Success("Microcontroller Status: " + first.value + ", " + second.value);
    }

    /** `customCommand`: the command with CR appended, and the whole reply as ASCII text. */
    method CustomCommand(command: string) returns (r: Result<Option<string>, PmtError>)
      modifies this
      ensures written == old(written) + SentBytes(command + "\r")
      ensures IsAsciiText(command) ==>
        r == Success(BytesToString(NextWindow(old(windows)))) && windows == LaterWindows(old(windows))
      ensures !IsAsciiText(command) ==> r == Failure(CommandNotAscii) && windows == old(windows)
    {
      var full := command + "\r";
      assert IsAsciiText(full) <==> IsAsciiText(command) by {
        assert forall i :: 0 <= i < |command| ==> full[i] == command[i];
        assert full[|command|] == '\r';
      }
      var response := SendCommand(full);
      if response.Failure? {
        return Failure(response.error);
      }
      return Success(BytesToString(response.value));
    }
  }
}

=== FILE: session.dfy ===
/** What one exchange with the HV chip does, as functions of the bytes the
    chip has yet to deliver: the frames written, the bytes left over and the
    outcome. The methods of `HighVoltageChip` (chip.dfy) are proved to do
    exactly this. */
module Session {
  import opened Wrappers
  import opened Bytes
  import opened Hex
  import opened Catalog
  import opened Errors
  import opened FrameCodec
  import opened Units
  import opened StatusBits
  import opened PowerFunction

  datatype Step<T> = Step(frames: seq<seq<Byte>>, rest: seq<Byte>, result: Result<T, Error>)

  /** `_getResponse`: read one frame with the recogniser and validate it. */
  function Receive(input: seq<Byte>): (r: (Result<Reply, Error>, seq<Byte>))
    ensures |r.1| <= |input|
    ensures FrameLength(input, AwaitingStart).None? ==> r == (Failure(NoFrame), [])
    ensures FrameLength(input, AwaitingStart).Some? ==> FrameLength(input, AwaitingStart).value == |input| - |r.1|
  {
    match FrameLength(input, AwaitingStart)
    case None => (Failure(NoFrame), [])
    case Some(n) => (Decode(input[..n]), input[n..])
  }

  /** Once the recogniser has stopped after `response`, `Receive` hands
      `response` to the decoder and leaves the rest unread. */
  lemma ReceiveStops(whole: seq<Byte>, response: seq<Byte>, rest: seq<Byte>)
    requires whole == response + rest
    requires FrameLength(whole, AwaitingStart) == Some(|response|)
    ensures Receive(whole) == (Decode(response), rest)
  {
    assert whole[..|response|] == response && whole[|response|..] == rest;
  }

  predicate WellFormedReply(r: Reply) {
    r.cmd in DataSizes && 4 * |r.words| == DataSizes[r.cmd]
  }

  /** The check every operation makes on a decoded reply: the `hxx` sentinel
      raises the device's error, any other echo must be the expected one. */
  function CheckReply(echo: string, r: Reply): (res: Result<seq<int>, Error>)
    requires WellFormedReply(r)
    ensures res.Success? <==> r.cmd == echo && echo != "hxx"
    ensures r.cmd == "hxx" ==> res == Failure(ErrorResponse(r.words[0]))
    ensures r.cmd != "hxx" && r.cmd != echo ==> res == Failure(EchoMismatch(echo, r.cmd))
    ensures res.Success? ==> res.value == r.words
  {
    if r.cmd == "hxx" then Failure(ErrorResponse(r.words[0]))
    else if r.cmd != echo then Failure(EchoMismatch(echo, r.cmd))
    else Success(r.words)
  }

  /** `_sendCommand(cmd, p)` followed by `_getResponse()` and the echo check. */
  function Transaction(cmd: string, p: Payload, echo: string, input: seq<Byte>): (t: Step<seq<int>>)
    ensures Encode(cmd, p).Failure? ==> t == Step([], input, Failure(Encode(cmd, p).error))
    ensures Encode(cmd, p).Success? ==> t.frames == [Encode(cmd, p).value]
    ensures t.result.Success? ==> echo in DataSizes && echo != "hxx" && 4 * |t.result.value| == DataSizes[echo]
  {
    match Encode(cmd, p)
    case Failure(e) => Step([], input, Failure(e))
    case Success(f) =>
      var (reply, rest) := Receive(input);
      match reply
      case Failure(e) => Step([f], rest, Failure(e))
      case Success(r) => Step([f], rest, CheckReply(echo, r))
  }

  lemma LowercaseCatalogCommand(cmd: string)
    requires cmd in DataSizes
    ensures |cmd| == 3 && IsAsciiText(cmd) && Lower(cmd) == cmd
    ensures forall i :: 0 <= i < 3 ==> cmd[i] as int != ETX
  {
    CatalogShape(cmd);
  }

  /** When the chip answers with a well-formed frame echoing the expected
      command, the exchange returns exactly the words the chip sent and
      consumes exactly that frame. */
  lemma TransactionAnswered(cmd: string, p: Payload, echo: string, ws: seq<int>, rest: seq<Byte>)
    requires Encode(cmd, p).Success?
    requires echo in DataSizes && echo != "hxx"
    requires 4 * |ws| == DataSizes[echo] && forall i :: 0 <= i < |ws| ==> 0 <= ws[i] <= 0xFFFF
    ensures Encode(echo, Words(ws)).Success?
    ensures Transaction(cmd, p, echo, Encode(echo, Words(ws)).value + rest)
         == Step([Encode(cmd, p).value], rest, Success(ws))
  {
    LowercaseCatalogCommand(echo);
    ReadEncodedFrame(echo, ws, rest);
  }

  /** When the chip answers with the `hxx` sentinel, the exchange fails with
      the device error the code stands for. */
  lemma TransactionRefused(cmd: string, p: Payload, echo: string, code: int, rest: seq<Byte>)
    requires Encode(cmd, p).Success?
    requires 0 <= code <= 0xFFFF
    ensures Encode("hxx", Words([code])).Success?
    ensures Transaction(cmd, p, echo, Encode("hxx", Words([code])).value + rest)
         == Step([Encode(cmd, p).value], rest, Failure(ErrorResponse(code)))
  {
    LowercaseCatalogCommand("hxx");
    ReadEncodedFrame("hxx", [code], rest);
  }

  // ---------------------------------------------------------------------------
  // The operations of the chip class

  function Acknowledge(t: Step<seq<int>>): Step<()> {
    Step(t.frames, t.rest, if t.result.Success? then Success(()) else Failure(t.result.error))
  }

  /** The one raw word of an HGV, HGC, HGT or HGS reply. */
  function Measurement(cmd: string, echo: string, input: seq<Byte>): (m: Step<int>)
    requires echo in DataSizes && DataSizes[echo] == 4
  {
    var t := Transaction(cmd, Raw([]), echo, input);
    Step(t.frames, t.rest, if t.result.Success? then Success(t.result.value[0]) else Failure(t.result.error))
  }

  function GetOutputVoltageSpec(input: seq<Byte>): Step<real> {
    var m := Measurement("HGV", "hgv", input);
    Step(m.frames, m.rest, if m.result.Success? then Success(ToVoltage(m.result.value)) else Failure(m.result.error))
  }

  function GetOutputCurrentSpec(input: seq<Byte>): Step<real> {
    var m := Measurement("HGC", "hgc", input);
    Step(m.frames, m.rest, if m.result.Success? then Success(ToCurrent(m.result.value)) else Failure(m.result.error))
  }

  function GetTemperatureSpec(input: seq<Byte>): Step<real> {
    var m := Measurement("HGT", "hgt", input);
    Step(m.frames, m.rest, if m.result.Success? then Success(ToTemperature(m.result.value as real)) else Failure(m.result.error))
  }

  function GetStatusSpec(input: seq<Byte>): Step<StatusFlags> {
    var m := Measurement("HGS", "hgs", input);
    Step(m.frames, m.rest, if m.result.Success? then Success(HVStatus(m.result.value)) else Failure(m.result.error))
  }

  datatype CorrectionReading = CorrectionReading(dT1s: real, dT2s: real, dT1: real, dT2: real, vb: real, tb: real)

  function GetTemperatureCorrectionFactorSpec(input: seq<Byte>): Step<CorrectionReading> {
    var t := Transaction("HRT", Raw([]), "hrt", input);
    if t.result.Failure? then Step(t.frames, t.rest, Failure(t.result.error))
    else
      var d := t.result.value;
      Step(t.frames, t.rest, Success(CorrectionReading(
        ToSecondCoefficient(d[0]), ToSecondCoefficient(d[1]),
        ToFirstCoefficient(d[2]), ToFirstCoefficient(d[3]),
        ToVoltage(d[4]), ToTemperature(d[5] as real))))
  }

  /** Read the correction factors (HRT), check the new ones, then send all six
      words with the reference voltage kept (HST). Uses the corrected Tb range. */
  function SetTemperatureCorrectionFactorSpec(p: CorrectionFactors, input: seq<Byte>): Step<()> {
    var g := GetTemperatureCorrectionFactorSpec(input);
    if g.result.Failure? then Step(g.frames, g.rest, Failure(g.result.error))
    else
      var vRef := Trunc(g.result.value.vb / VoltageFactor);
      match CorrectionWords(p, vRef)
      case None => Step(g.frames, g.rest, Failure(ValidationError))
      case Some(ws) =>
        var t := Transaction("HST", Words(ws), "hst", g.rest);
        Step(g.frames + t.frames, t.rest, if t.result.Success? then Success(()) else Failure(t.result.error))
  }

  /** The three ways `SetTemperatureCorrectionFactorSpec` can go, one step each. */
  lemma TemperatureCorrectionCases(p: CorrectionFactors, input: seq<Byte>)
    ensures var g := GetTemperatureCorrectionFactorSpec(input);
      var s := SetTemperatureCorrectionFactorSpec(p, input);
      && (g.result.Failure? ==> s == Step(g.frames, g.rest, Failure(g.result.error)))
      && (g.result.Success? && CorrectionWords(p, Trunc(g.result.value.vb / VoltageFactor)).None? ==>
            s == Step(g.frames, g.rest, Failure(ValidationError)))
      && (g.result.Success? && CorrectionWords(p, Trunc(g.result.value.vb / VoltageFactor)).Some? ==>
            var t := Transaction("HST", Words(CorrectionWords(p, Trunc(g.result.value.vb / VoltageFactor)).value), "hst", g.rest);
            s == Step(g.frames + t.frames, t.rest, if t.result.Success? then Success(()) else Failure(t.result.error)))
  {
  }

  function SetHighVoltageOutputSpec(on: bool, input: seq<Byte>): Step<()> {
    if on then Acknowledge(Transaction("HON", Raw([]), "hon", input))
    else Acknowledge(Transaction("HOF", Raw([]), "hof", input))
  }

  function SetTemperatureCompensationModeSpec(enabled: bool, input: seq<Byte>): Step<()> {
    Acknowledge(Transaction("HCM", Raw([if enabled then 0x31 else 0x30]), "hcm", input))
  }

  function ResetPowersupplySpec(input: seq<Byte>): Step<()> {
    Acknowledge(Transaction("HRE", Raw([]), "hre", input))
  }

  function SetReferenceVoltageSpec(voltage: real, input: seq<Byte>): Step<()> {
    match ReferenceVoltageWord(voltage)
    case None => Step([], input, Failure(ValidationError))
    case Some(w) => Acknowledge(Transaction("HBV", Word(w), "hbv", input))
  }

  datatype Monitoring = Monitoring(status: int, voSet: real, voMon: real, ioMon: real, tMon: real)

  function GetMonitoringInfoSpec(input: seq<Byte>): Step<Monitoring> {
    var t := Transaction("HPO", Raw([]), "hpo", input);
    if t.result.Failure? then Step(t.frames, t.rest, Failure(t.result.error))
    else
      var d := t.result.value;
      Step(t.frames, t.rest, Success(Monitoring(d[0], ToVoltage(d[1]), ToVoltage(d[2]), ToCurrent(d[3]), ToTemperature(d[4] as real))))
  }

  /** `readPowerFunction` as written: it queries with HSC and then reads
      `data[0]`, but the catalog declares no DATA for `hsc` replies. */
  function ReadPowerFunctionAsWritten(input: seq<Byte>): (r: Step<(OverCurrentProtection, OutputVoltageControl)>)
    ensures Encode("HSC", Raw([])).Success?
    ensures r.frames == [Encode("HSC", Raw([])).value]
  {
    assert IsAsciiText("HSC");
    var t := Transaction("HSC", Raw([]), "hsc", input);
    if t.result.Failure? then Step(t.frames, t.rest, Failure(t.result.error))
    else if |t.result.value| == 0 then Step(t.frames, t.rest, Failure(IndexOutOfRange))
    else Step(t.frames, t.rest, Success(DecodePowerFunction(t.result.value[0])))
  }

  /** No input makes the as-written read succeed: every `hsc` reply the
      decoder accepts is empty. */
  lemma ReadPowerFunctionAsWrittenFails(input: seq<Byte>)
    ensures ReadPowerFunctionAsWritten(input).result.Failure?
  {
    var t := Transaction("HSC", Raw([]), "hsc", input);
    if t.result.Success? {
      assert DataSizes["hsc"] == 0;
      assert |t.result.value| == 0;
    }
  }

  /** The chip's well-formed acknowledgement of HSC ends in the `IndexError` of `data[0]`. */
  lemma AcknowledgedHscHasNoStatusWord(rest: seq<Byte>)
    ensures Encode("hsc", Words([])).Success?
    ensures ReadPowerFunctionAsWritten(Encode("hsc", Words([])).value + rest).result == Failure(IndexOutOfRange)
  {
    assert Encode("HSC", Raw([])).Success? by { assert IsAsciiText("HSC"); }
    TransactionAnswered("HSC", Raw([]), "hsc", [], rest);
  }

  /** The corrected read: HRC, whose catalog entry declares the one word the
      status table needs. */
  function ReadPowerFunctionSpec(input: seq<Byte>): (r: Step<(OverCurrentProtection, OutputVoltageControl)>)
    ensures Encode("HRC", Raw([])).Success?
    ensures r.frames == [Encode("HRC", Raw([])).value]
  {
    assert IsAsciiText("HRC");
    var t := Transaction("HRC", Raw([]), "hrc", input);
    if t.result.Failure? then Step(t.frames, t.rest, Failure(t.result.error))
    else Step(t.frames, t.rest, Success(DecodePowerFunction(t.result.value[0])))
  }

  /** A chip that reports status word `st` is read as the table says. */
  lemma ReadPowerFunctionAnswered(st: int, rest: seq<Byte>)
    requires 0 <= st <= 0xFFFF
    ensures Encode("hrc", Words([st])).Success?
    ensures ReadPowerFunctionSpec(Encode("hrc", Words([st])).value + rest)
         == Step([Encode("HRC", Raw([])).value], rest, Success(DecodePowerFunction(st)))
  {
    assert IsAsciiText("HRC");
    TransactionAnswered("HRC", Raw([]), "hrc", [st], rest);
  }

  /** `Switched`: the HSC code was sent and acknowledged; `StatusUnavailable`:
      the field to keep could not be read, so nothing was sent. */
  datatype Toggle = Switched | StatusUnavailable

  function SetOverCurrentProtectionSpec(on: bool, input: seq<Byte>): Step<Toggle> {
    var r := ReadPowerFunctionSpec(input);
    if r.result.Failure? then Step(r.frames, r.rest, Failure(r.result.error))
    else match OverCurrentProtectionCode(on, r.result.value.1)
      case None => Step(r.frames, r.rest, Success(StatusUnavailable))
      case Some(code) =>
        var t := Transaction("HSC", Word(code), "hsc", r.rest);
        Step(r.frames + t.frames, t.rest, if t.result.Success? then Success(Switched) else Failure(t.result.error))
  }

  function SetOutputVoltageControlFunctionSpec(on: bool, input: seq<Byte>): Step<Toggle> {
    var r := ReadPowerFunctionSpec(input);
    if r.result.Failure? then Step(r.frames, r.rest, Failure(r.result.error))
    else match OutputVoltageControlCode(on, r.result.value.0)
      case None => Step(r.frames, r.rest, Success(StatusUnavailable))
      case Some(code) =>
        var t := Transaction("HSC", Word(code), "hsc", r.rest);
        Step(r.frames + t.frames, t.rest, if t.result.Success? then Success(Switched) else Failure(t.result.error))
  }

  // ---------------------------------------------------------------------------
  // Properties of the operations

  /** A request that carries words encodes whatever the words are, since
      the name is ASCII. */
  lemma WordsRequestEncodes(cmd: string, p: Payload)
    requires cmd == "HST" || cmd == "HSC"
    requires p.Words? || p.Word?
    ensures Encode(cmd, p).Success?
  {
    assert IsAsciiText(cmd);
  }

  /** How the two toggles continue once the power-function word has been read. */
  lemma ProtectionSwitchedAfterRead(on: bool, input: seq<Byte>, mid: seq<Byte>, pf: (OverCurrentProtection, OutputVoltageControl),
                                    code: int, f: seq<Byte>, rest: seq<Byte>)
    requires ReadPowerFunctionSpec(input) == Step([Encode("HRC", Raw([])).value], mid, Success(pf))
    requires OverCurrentProtectionCode(on, pf.1) == Some(code)
    requires Transaction("HSC", Word(code), "hsc", mid) == Step([f], rest, Success([]))
    ensures SetOverCurrentProtectionSpec(on, input) == Step([Encode("HRC", Raw([])).value, f], rest, Success(Switched))
  {
  }

  lemma ControlSwitchedAfterRead(on: bool, input: seq<Byte>, mid: seq<Byte>, pf: (OverCurrentProtection, OutputVoltageControl),
                                 code: int, f: seq<Byte>, rest: seq<Byte>)
    requires ReadPowerFunctionSpec(input) == Step([Encode("HRC", Raw([])).value], mid, Success(pf))
    requires OutputVoltageControlCode(on, pf.0) == Some(code)
    requires Transaction("HSC", Word(code), "hsc", mid) == Step([f], rest, Success([]))
    ensures SetOutputVoltageControlFunctionSpec(on, input) == Step([Encode("HRC", Raw([])).value, f], rest, Success(Switched))
  {
  }

  /** Every well-formed reply the catalog allows can be framed. */
  lemma ReplyEncodes(echo: string, ws: seq<int>)
    requires echo in DataSizes
    requires 4 * |ws| == DataSizes[echo] && forall i :: 0 <= i < |ws| ==> 0 <= ws[i] <= 0xFFFF
    ensures Encode(echo, Words(ws)).Success?
  {
    LowercaseCatalogCommand(echo);
    ReadEncodedFrame(echo, ws, []);
  }

  /** `setReferenceVoltage`: an out-of-range voltage is refused before anything
      is written; an accepted one is sent as one HBV frame of twelve bytes whose
      data word reads back as the converted voltage. */
  lemma ReferenceVoltageValidatedFirst(voltage: real, input: seq<Byte>)
    ensures var s := SetReferenceVoltageSpec(voltage, input);
      && (!(0.0 <= voltage <= 65535.0 * VoltageFactor) ==> s == Step([], input, Failure(ValidationError)))
      && (0.0 <= voltage <= 65535.0 * VoltageFactor ==>
            |s.frames| == 1 && |s.frames[0]| == 12
            && ParseInt(s.frames[0][4..8]) == ReferenceVoltageWord(voltage))
  {
    match ReferenceVoltageWord(voltage)
    case None =>
    case Some(w) =>
      assert IsAsciiText("HBV");
      IntToBytesLength(w);
      IntToBytesRoundTrip(w);
      var f := Encode("HBV", Word(w)).value;
      FrameLayout(AsciiBytes("HBV"), IntToBytes(w));
      assert f[4..8] == f[1 + 3 .. |f| - 4];
  }

  /** `getTemperatureCorrectionFactor` against a chip that reports the six
      words `d`: the reading is the words converted in catalog order, and the
      reference voltage converts back to exactly the word the chip sent. */
  lemma CorrectionFactorsRead(d: seq<int>, mid: seq<Byte>)
    requires |d| == 6 && forall i :: 0 <= i < 6 ==> 0 <= d[i] <= 0xFFFF
    ensures Encode("hrt", Words(d)).Success? && Encode("HRT", Raw([])).Success?
    ensures var g := GetTemperatureCorrectionFactorSpec(Encode("hrt", Words(d)).value + mid);
      && g == Step([Encode("HRT", Raw([])).value], mid, Success(CorrectionReading(
                ToSecondCoefficient(d[0]), ToSecondCoefficient(d[1]),
                ToFirstCoefficient(d[2]), ToFirstCoefficient(d[3]),
                ToVoltage(d[4]), ToTemperature(d[5] as real))))
      && Trunc(g.result.value.vb / VoltageFactor) == d[4]
  {
    assert Encode("HRT", Raw([])).Success? by { assert IsAsciiText("HRT"); }
    TransactionAnswered("HRT", Raw([]), "hrt", d, mid);
    ConversionsRoundTrip(d[4]);
  }

  /** `setTemperatureCorrectionFactor` against a chip that reports the six
      words `d`: HRT is sent first whatever the new factors, and factors out
      of range stop the operation there, whatever the chip would send next. */
  lemma TemperatureCorrectionRefused(p: CorrectionFactors, d: seq<int>, mid: seq<Byte>)
    requires |d| == 6 && forall i :: 0 <= i < 6 ==> 0 <= d[i] <= 0xFFFF
    requires CorrectionWords(p, d[4]).None?
    ensures Encode("hrt", Words(d)).Success? && Encode("HRT", Raw([])).Success?
    ensures SetTemperatureCorrectionFactorSpec(p, Encode("hrt", Words(d)).value + mid)
         == Step([Encode("HRT", Raw([])).value], mid, Failure(ValidationError))
  {
    CorrectionFactorsRead(d, mid);
  }

  /** How `setTemperatureCorrectionFactor` continues once the factors have been read. */
  lemma SendAfterRead(p: CorrectionFactors, input: seq<Byte>, mid: seq<Byte>, reading: CorrectionReading,
                      ws: seq<int>, e: seq<int>, f: seq<Byte>, rest: seq<Byte>)
    requires GetTemperatureCorrectionFactorSpec(input) == Step([Encode("HRT", Raw([])).value], mid, Success(reading))
    requires CorrectionWords(p, Trunc(reading.vb / VoltageFactor)) == Some(ws)
    requires Transaction("HST", Words(ws), "hst", mid) == Step([f], rest, Success(e))
    ensures SetTemperatureCorrectionFactorSpec(p, input) == Step([Encode("HRT", Raw([])).value, f], rest, Success(()))
  {
  }

  /** The same, for whatever the chip sends after the HRT reply. */
  lemma TemperatureCorrectionSentAfter(p: CorrectionFactors, d: seq<int>, mid: seq<Byte>, f: seq<Byte>, e: seq<int>, rest: seq<Byte>)
    requires |d| == 6 && forall i :: 0 <= i < 6 ==> 0 <= d[i] <= 0xFFFF
    requires CorrectionWords(p, d[4]).Some?
    requires Transaction("HST", Words(CorrectionWords(p, d[4]).value), "hst", mid) == Step([f], rest, Success(e))
    ensures Encode("hrt", Words(d)).Success? && Encode("HRT", Raw([])).Success?
    ensures SetTemperatureCorrectionFactorSpec(p, Encode("hrt", Words(d)).value + mid)
         == Step([Encode("HRT", Raw([])).value, f], rest, Success(()))
  {
    CorrectionFactorsRead(d, mid);
    var input := Encode("hrt", Words(d)).value + mid;
    var g := GetTemperatureCorrectionFactorSpec(input);
    SendAfterRead(p, input, mid, g.result.value, CorrectionWords(p, d[4]).value, e, f, rest);
  }

  /** In-range factors are sent as one HST frame after the HRT read, carrying
      the new words with the reference voltage word read from the chip
      unchanged in fifth place; the chip's `hst` reply (six words `e`)
      completes it. */
  lemma TemperatureCorrectionSent(p: CorrectionFactors, d: seq<int>, e: seq<int>, rest: seq<Byte>)
    requires |d| == 6 && forall i :: 0 <= i < 6 ==> 0 <= d[i] <= 0xFFFF
    requires |e| == 6 && forall i :: 0 <= i < 6 ==> 0 <= e[i] <= 0xFFFF
    requires CorrectionWords(p, d[4]).Some?
    ensures Encode("hrt", Words(d)).Success? && Encode("hst", Words(e)).Success?
    ensures var ws := CorrectionWords(p, d[4]).value;
      && ws[4] == d[4]
      && Encode("HRT", Raw([])).Success? && Encode("HST", Words(ws)).Success?
      && SetTemperatureCorrectionFactorSpec(p, Encode("hrt", Words(d)).value + Encode("hst", Words(e)).value + rest)
         == Step([Encode("HRT", Raw([])).value, Encode("HST", Words(ws)).value], rest, Success(()))
  {
    ReplyEncodes("hst", e);
    var ack := Encode("hst", Words(e)).value;
    var hrt := Encode("hrt", Words(d)).value;
    assert hrt + ack + rest == hrt + (ack + rest);
    var ws := CorrectionWords(p, d[4]).value;
    WordsRequestEncodes("HST", Words(ws));
    var f := Encode("HST", Words(ws)).value;
    TransactionAnswered("HST", Words(ws), "hst", e, rest);
    TemperatureCorrectionSentAfter(p, d, ack + rest, f, e, rest);
  }

  /** `setOverCurrentProtection` and `setOutputVoltageControlFunction` against
      a chip whose power-function word `st` lies outside the table: the read
      is the only frame sent, whatever the chip would send next. */
  lemma PowerFunctionUnreadable(on: bool, st: int, mid: seq<Byte>)
    requires 3 < st <= 0xFFFF
    ensures Encode("hrc", Words([st])).Success? && Encode("HRC", Raw([])).Success?
    ensures SetOverCurrentProtectionSpec(on, Encode("hrc", Words([st])).value + mid)
         == Step([Encode("HRC", Raw([])).value], mid, Success(StatusUnavailable))
    ensures SetOutputVoltageControlFunctionSpec(on, Encode("hrc", Words([st])).value + mid)
         == Step([Encode("HRC", Raw([])).value], mid, Success(StatusUnavailable))
  {
    ReadPowerFunctionAnswered(st, mid);
  }

  /** `setOverCurrentProtection` and `setOutputVoltageControlFunction`
      against a chip that reports power-function word `st` in the table and
      then acknowledges: one HSC frame follows the read, whose code switches
      the requested field as asked and keeps the other field as the chip
      reported it. */
  lemma PowerFunctionSwitched(on: bool, st: int, rest: seq<Byte>)
    requires 0 <= st <= 3
    ensures Encode("hrc", Words([st])).Success? && Encode("hsc", Words([])).Success? && Encode("HRC", Raw([])).Success?
    ensures OverCurrentProtectionCode(on, DecodePowerFunction(st).1).Some?
    ensures OutputVoltageControlCode(on, DecodePowerFunction(st).0).Some?
    ensures var input := Encode("hrc", Words([st])).value + Encode("hsc", Words([])).value + rest;
      var ocp := OverCurrentProtectionCode(on, DecodePowerFunction(st).1).value;
      var ovc := OutputVoltageControlCode(on, DecodePowerFunction(st).0).value;
      && DecodePowerFunction(ocp) == (if on then AutomaticRestoration else NotInUse, DecodePowerFunction(st).1)
      && DecodePowerFunction(ovc) == (DecodePowerFunction(st).0, if on then Effectiveness else Invalid)
      && Encode("HSC", Word(ocp)).Success? && Encode("HSC", Word(ovc)).Success?
      && SetOverCurrentProtectionSpec(on, input)
         == Step([Encode("HRC", Raw([])).value, Encode("HSC", Word(ocp)).value], rest, Success(Switched))
      && SetOutputVoltageControlFunctionSpec(on, input)
         == Step([Encode("HRC", Raw([])).value, Encode("HSC", Word(ovc)).value], rest, Success(Switched))
  {
    ReplyEncodes("hsc", []);
    var ack := Encode("hsc", Words([])).value;
    var hrc := Encode("hrc", Words([st])).value;
    assert hrc + ack + rest == hrc + (ack + rest);
    var pf := DecodePowerFunction(st);
    var ocp := OverCurrentProtectionCode(on, pf.1).value;
    var ovc := OutputVoltageControlCode(on, pf.0).value;
    WordsRequestEncodes("HSC", Word(ocp));
    WordsRequestEncodes("HSC", Word(ovc));
    TransactionAnswered("HSC", Word(ocp), "hsc", [], rest);
    TransactionAnswered("HSC", Word(ovc), "hsc", [], rest);
    PowerFunctionSwitchedAfter(on, st, ack + rest, Encode("HSC", Word(ocp)).value, Encode("HSC", Word(ovc)).value, rest);
  }

  /** The same, for whatever the chip sends after the HRC reply. */
  lemma PowerFunctionSwitchedAfter(on: bool, st: int, mid: seq<Byte>, f: seq<Byte>, g: seq<Byte>, rest: seq<Byte>)
    requires 0 <= st <= 3
    requires OverCurrentProtectionCode(on, DecodePowerFunction(st).1).Some?
    requires OutputVoltageControlCode(on, DecodePowerFunction(st).0).Some?
    requires Transaction("HSC", Word(OverCurrentProtectionCode(on, DecodePowerFunction(st).1).value), "hsc", mid)
          == Step([f], rest, Success([]))
    requires Transaction("HSC", Word(OutputVoltageControlCode(on, DecodePowerFunction(st).0).value), "hsc", mid)
          == Step([g], rest, Success([]))
    ensures Encode("hrc", Words([st])).Success? && Encode("HRC", Raw([])).Success?
    ensures SetOverCurrentProtectionSpec(on, Encode("hrc", Words([st])).value + mid)
         == Step([Encode("HRC", Raw([])).value, f], rest, Success(Switched))
    ensures SetOutputVoltageControlFunctionSpec(on, Encode("hrc", Words([st])).value + mid)
         == Step([Encode("HRC", Raw([])).value, g], rest, Success(Switched))
  {
    ReadPowerFunctionAnswered(st, mid);
    var input := Encode("hrc", Words([st])).value + mid;
    var pf := DecodePowerFunction(st);
    ProtectionSwitchedAfterRead(on, input, mid, pf, OverCurrentProtectionCode(on, pf.1).value, f, rest);
    ControlSwitchedAfterRead(on, input, mid, pf, OutputVoltageControlCode(on, pf.0).value, g, rest);
  }

  /** `getStatus` returns the flags of the status byte the chip reports. */
  lemma GetStatusReadsFlags(f: StatusFlags, rest: seq<Byte>)
    ensures Encode("hgs", Words([StatusByte(f)])).Success? && Encode("HGS", Raw([])).Success?
    ensures GetStatusSpec(Encode("hgs", Words([StatusByte(f)])).value + rest)
         == Step([Encode("HGS", Raw([])).value], rest, Success(f))
  {
    assert IsAsciiText("HGS");
    DecodeStatusByte(f);
    TransactionAnswered("HGS", Raw([]), "hgs", [StatusByte(f)], rest);
  }

  /** A chip answering HGV with error code 2 makes `getOutputVoltage` fail with "Timeout Error". */
  lemma OutputVoltageTimeout(rest: seq<Byte>)
    ensures Encode("hxx", Words([2])).Success?
    ensures GetOutputVoltageSpec(Encode("hxx", Words([2])).value + rest).result
         == Failure(DeviceError(2, "Timeout Error"))
  {
    assert IsAsciiText("HGV");
    TransactionRefused("HGV", Raw([]), "hgv", 2, rest);
  }

  /** The class body defines `setOutputVoltageControlFunction` twice; the
      second definition (the one Python keeps) calls `readPowerFunction` as a
      bare name, which no module scope defines, so the call fails before any
      frame is written. */
  function SetOutputVoltageControlFunctionAsWritten(on: bool, input: seq<Byte>): (r: Step<Toggle>)
    ensures r.frames == [] && r.rest == input && r.result.Failure?
  {
    Step([], input, Failure(UndefinedName("readPowerFunction")))
  }

  /** Against a chip that would answer, the definition Python keeps sends
      nothing and fails, where the truth table of the first definition
      switches the field. */
  lemma OutputVoltageControlAsWrittenNeverSwitches(on: bool, st: int, rest: seq<Byte>)
    requires 0 <= st <= 3
    ensures Encode("hrc", Words([st])).Success? && Encode("hsc", Words([])).Success?
    ensures var input := Encode("hrc", Words([st])).value + Encode("hsc", Words([])).value + rest;
      && SetOutputVoltageControlFunctionAsWritten(on, input) == Step([], input, Failure(UndefinedName("readPowerFunction")))
      && SetOutputVoltageControlFunctionSpec(on, input).result == Success(Switched)
      && |SetOutputVoltageControlFunctionSpec(on, input).frames| == 2
  {
    PowerFunctionSwitched(on, st, rest);
  }
}

=== FILE: status.dfy ===
/** The 8-bit status word of the HV chip (`getStatus` of the chip class,
    `HVStatus` of the two scintillator classes and `getStatus` of the
    function-style script all decode it the same way). Bits 0 and 1 are
    active-high, bits 2, 3, 4 and 6 active-low, bits 5 and 7 unused. */
module StatusBits {

  datatype StatusFlags = StatusFlags(
    highVoltageOn: bool,
    overcurrentProtection: bool,
    currentInSpecification: bool,
    sensorConnected: bool,
    sensorInSpecification: bool,
    temperatureConversionEffective: bool)

  function Pow2(k: nat): (p: nat)
    ensures p >= 1
  {
    if k == 0 then 1 else 2 * Pow2(k - 1)
  }

  /** `(x & 2**k) != 0` for any Python int, negative ones in two's complement. */
  function Bit(x: int, k: nat): bool
    decreases k
  {
    if k == 0 then x % 2 == 1 else Bit(x / 2, k - 1)
  }

  /** Bit `k` of `x` read as Python's `x & 2**k` for the masks `HVStatus` uses. */
  lemma LowBits(x: int)
    ensures Bit(x, 0) <==> x % 2 == 1
    ensures Bit(x, 1) <==> (x / 2) % 2 == 1
    ensures Bit(x, 2) <==> (x / 4) % 2 == 1
    ensures Bit(x, 3) <==> (x / 8) % 2 == 1
    ensures Bit(x, 4) <==> (x / 16) % 2 == 1
    ensures Bit(x, 6) <==> (x / 64) % 2 == 1
  {
    assert x / 2 / 2 == x / 4;
    assert x / 4 / 2 == x / 8;
    assert x / 8 / 2 == x / 16;
    assert x / 16 / 2 == x / 32;
    assert x / 32 / 2 == x / 64;
  }

  function HVStatus(status: int): (r: StatusFlags)
    ensures r.highVoltageOn <==> status % 2 == 1
    ensures r.overcurrentProtection <==> (status / 2) % 2 == 1
    ensures r.currentInSpecification <==> (status / 4) % 2 == 0
    ensures r.sensorConnected <==> (status / 8) % 2 == 0
    ensures r.sensorInSpecification <==> (status / 16) % 2 == 0
    ensures r.temperatureConversionEffective <==> (status / 64) % 2 == 0
  {
    LowBits(status);
    StatusFlags(
      highVoltageOn := Bit(status, 0),
      overcurrentProtection := Bit(status, 1),
      currentInSpecification := !Bit(status, 2),
      sensorConnected := !Bit(status, 3),
      sensorInSpecification := !Bit(status, 4),
      temperatureConversionEffective := !Bit(status, 6))
  }

  /** The number whose bit `k` is `bits[k]`. */
  function Pack(bits: seq<bool>): nat {
    if bits == [] then 0 else (if bits[0] then 1 else 0) + 2 * Pack(bits[1..])
  }

  /** The status byte the chip sends for the given flags, unused bits clear. */
  function StatusByte(f: StatusFlags): nat {
    Pack([f.highVoltageOn, f.overcurrentProtection, !f.currentInSpecification,
          !f.sensorConnected, !f.sensorInSpecification, false,
          !f.temperatureConversionEffective, false])
  }

  lemma {:induction false} BitOfPack(bits: seq<bool>, k: nat)
    requires k < |bits|
    ensures Bit(Pack(bits), k) == bits[k]
  {
    if k > 0 {
      var x := Pack(bits);
      assert x / 2 == Pack(bits[1..]);
      BitOfPack(bits[1..], k - 1);
    }
  }

  lemma {:induction false} PackBound(bits: seq<bool>)
    ensures Pack(bits) < Pow2(|bits|)
  {
    if bits != [] { PackBound(bits[1..]); }
  }

  /** Decoding the byte built from a set of flags gives those flags back. */
  lemma DecodeStatusByte(f: StatusFlags)
    ensures HVStatus(StatusByte(f)) == f
    ensures StatusByte(f) < 256
  {
    var bits := [f.highVoltageOn, f.overcurrentProtection, !f.currentInSpecification,
                 !f.sensorConnected, !f.sensorInSpecification, false,
                 !f.temperatureConversionEffective, false];
    BitOfPack(bits, 0);
    BitOfPack(bits, 1);
    BitOfPack(bits, 2);
    BitOfPack(bits, 3);
    BitOfPack(bits, 4);
    BitOfPack(bits, 6);
    PackBound(bits);
    assert Pow2(8) == 256;
  }

  /** Re-encoding the flags of a byte keeps every used bit and clears bits 5 and 7. */
  lemma EncodeStatusFlags(x: int, k: nat)
    requires k < 8
    ensures Bit(StatusByte(HVStatus(x)), k) == (k != 5 && k != 7 && Bit(x, k))
  {
    var f := HVStatus(x);
    var bits := [f.highVoltageOn, f.overcurrentProtection, !f.currentInSpecification,
                 !f.sensorConnected, !f.sensorInSpecification, false,
                 !f.temperatureConversionEffective, false];
    BitOfPack(bits, k);
  }

  /** Setting bit `m` of a number in which it is clear changes no other bit. */
  lemma {:induction false} SetBitKeepsOthers(x: int, m: nat, k: nat)
    requires !Bit(x, m)
    ensures Bit(x + Pow2(m), m)
    ensures k != m ==> Bit(x + Pow2(m), k) == Bit(x, k)
    decreases m
  {
    if m == 0 {
      if k > 0 {
        assert (x + 1) / 2 == x / 2;
      }
    } else {
      var p := Pow2(m - 1);
      assert (x + Pow2(m)) / 2 == x / 2 + p;
      assert (x + Pow2(m)) % 2 == x % 2;
      if k > 0 {
        SetBitKeepsOthers(x / 2, m - 1, k - 1);
      } else {
        SetBitKeepsOthers(x / 2, m - 1, 0);
      }
    }
  }

  /** Bits 5 and 7 are ignored: two status values differing only there decode alike. */
  lemma UnusedBitsIgnored(x: int, m: nat)
    requires m == 5 || m == 7
    requires !Bit(x, m)
    ensures HVStatus(x + Pow2(m)) == HVStatus(x)
  {
    SetBitKeepsOthers(x, m, 0);
    SetBitKeepsOthers(x, m, 1);
    SetBitKeepsOthers(x, m, 2);
    SetBitKeepsOthers(x, m, 3);
    SetBitKeepsOthers(x, m, 4);
    SetBitKeepsOthers(x, m, 6);
  }

  /** Status 0 reads as: high voltage off, no over-current protection, and the
      four active-low conditions all fine. Status 1 differs only in the first flag. */
  lemma StatusExamples()
    ensures HVStatus(0) == StatusFlags(false, false, true, true, true, true)
    ensures HVStatus(1) == StatusFlags(true, false, true, true, true, true)
  {
  }
}

=== FILE: units.dfy ===
/** Conversions between the chip's raw 16-bit words and physical units, and
    the range checks the set operations apply before anything is sent.
    Python floats are modelled as exact reals. */
module Units {
  import opened Wrappers

  const VoltageFactor: real := 0.001812
  const CurrentFactor: real := 0.00498
  const FirstCoefficientFactor: real := 0.05225
  const SecondCoefficientFactor: real := 0.001507

  /** Python's `int(x)` on a float: truncation toward zero. */
  function Trunc(x: real): (r: int)
    ensures x >= 0.0 ==> r as real <= x < r as real + 1.0
    ensures x <= 0.0 ==> r as real - 1.0 < x <= r as real
  {
    if x >= 0.0 then x.Floor else -((-x).Floor)
  }

  function ToVoltage(raw: int): real { raw as real * VoltageFactor }
  function ToCurrent(raw: int): real { raw as real * CurrentFactor }
  function ToFirstCoefficient(raw: int): real { raw as real * FirstCoefficientFactor }
  function ToSecondCoefficient(raw: int): real { raw as real * SecondCoefficientFactor }

  /** `_temperatureConversionFunction`. */
  function ToTemperature(raw: real): real { (raw * 0.00001907 - 1.035) / (-0.0055) }

  /** `_reversetemperatureConversionFunction`. */
  function FromTemperature(t: real): real { (1.035 - 0.0055 * t) / 0.00001907 }

  /** Over exact arithmetic every conversion is undone by its inverse. */
  lemma ConversionsRoundTrip(raw: int)
    ensures Trunc(ToVoltage(raw) / VoltageFactor) == raw
    ensures Trunc(ToCurrent(raw) / CurrentFactor) == raw
    ensures Trunc(ToFirstCoefficient(raw) / FirstCoefficientFactor) == raw
    ensures Trunc(ToSecondCoefficient(raw) / SecondCoefficientFactor) == raw
    ensures FromTemperature(ToTemperature(raw as real)) == raw as real
  {
  }

  /** The temperature function falls as the raw word grows. */
  lemma TemperatureDecreasing(a: real, b: real)
    requires a < b
    ensures ToTemperature(a) > ToTemperature(b)
  {
  }

  /** `setReferenceVoltage`'s range check and conversion; `None` is the
      `ValueError` raised before anything is sent. An accepted voltage always
      gives a word that fits the four hex digits of a data word. */
  function ReferenceVoltageWord(voltage: real): (r: Option<int>)
    ensures r.Some? <==> 0.0 <= voltage <= 65535.0 * VoltageFactor
    ensures r.Some? ==> 0 <= r.value <= 0xFFFF
    ensures r.Some? ==> ToVoltage(r.value) <= voltage < ToVoltage(r.value + 1)
  {
    var maxV := 65535.0 * VoltageFactor;
    if !(0.0 <= voltage <= maxV) then None
    else Some(Trunc(voltage / VoltageFactor))
  }

  /** The five parameters of `setTemperatureCorrectionFactor`. */
  datatype CorrectionFactors = CorrectionFactors(dT1s: real, dT2s: real, dT1: real, dT2: real, tb: real)

  const SlopeMin: real := 1000.0 * SecondCoefficientFactor   // 0x03e8
  const SlopeMax: real := 64536.0 * SecondCoefficientFactor  // 0xfc18
  const OffsetMax: real := 4095.0 * FirstCoefficientFactor   // 0xfff

  predicate SlopesAndOffsetsInRange(p: CorrectionFactors) {
    && 0.0 <= p.dT1 <= OffsetMax && 0.0 <= p.dT2 <= OffsetMax
    && SlopeMin <= p.dT1s <= SlopeMax && SlopeMin <= p.dT2s <= SlopeMax
  }

  /** The six HST words in the order the chip expects them, the reference
      voltage word `vRef` fifth. */
  function CorrectionWordList(p: CorrectionFactors, vRef: int): seq<int> {
    [Trunc(p.dT1s / SecondCoefficientFactor), Trunc(p.dT2s / SecondCoefficientFactor),
     Trunc(p.dT1 / FirstCoefficientFactor), Trunc(p.dT2 / FirstCoefficientFactor),
     vRef, Trunc(FromTemperature(p.tb))]
  }

  /** The range checks exactly as the source states them, with
      `tb_min = T(0x0000)` and `tb_max = T(0xffff)`. */
  function CorrectionWordsAsWritten(p: CorrectionFactors, vRef: int): (r: Option<seq<int>>)
    ensures r.Some? <==> SlopesAndOffsetsInRange(p) && ToTemperature(0.0) <= p.tb <= ToTemperature(65535.0)
    ensures r.Some? ==> r.value == CorrectionWordList(p, vRef)
  {
    var tbMin := ToTemperature(0.0);
    var tbMax := ToTemperature(65535.0);
    if !SlopesAndOffsetsInRange(p) then None
    else if !(tbMin <= p.tb <= tbMax) then None
    else Some(CorrectionWordList(p, vRef))
  }

  /** Because the temperature function is decreasing, `tb_min` lies above
      `tb_max` and the check as written rejects every Tb: the HST request can
      never be built. */
  lemma AsWrittenRejectsEveryTb(p: CorrectionFactors, vRef: int)
    ensures CorrectionWordsAsWritten(p, vRef) == None
  {
    TemperatureDecreasing(0.0, 65535.0);
  }

  /** The intended range check: Tb between the temperatures of raw words 0xffff and 0. */
  function CorrectionWords(p: CorrectionFactors, vRef: int): (r: Option<seq<int>>)
    ensures r.Some? <==>
      SlopesAndOffsetsInRange(p) && ToTemperature(65535.0) <= p.tb <= ToTemperature(0.0)
    ensures r.Some? ==> |r.value| == 6 && r.value[4] == vRef
    ensures r.Some? ==> 1000 <= r.value[0] <= 64536 && 1000 <= r.value[1] <= 64536
    ensures r.Some? ==> 0 <= r.value[2] <= 4095 && 0 <= r.value[3] <= 4095
    ensures r.Some? ==> 0 <= r.value[5] <= 0xFFFF
  {
    if !SlopesAndOffsetsInRange(p) then None
    else if !(ToTemperature(65535.0) <= p.tb <= ToTemperature(0.0)) then None
    else
      assert 0.0 <= FromTemperature(p.tb) <= 65535.0;
      Some(CorrectionWordList(p, vRef))
  }

  /** Each accepted word is the largest raw word whose physical value does
      not pass the parameter it encodes (for Tb, which falls as the word
      grows, the largest word whose temperature is not below Tb). */
  lemma CorrectionWordsTrackParameters(p: CorrectionFactors, vRef: int)
    requires CorrectionWords(p, vRef).Some?
    ensures var w := CorrectionWords(p, vRef).value;
      && ToSecondCoefficient(w[0]) <= p.dT1s < ToSecondCoefficient(w[0] + 1)
      && ToSecondCoefficient(w[1]) <= p.dT2s < ToSecondCoefficient(w[1] + 1)
      && ToFirstCoefficient(w[2]) <= p.dT1 < ToFirstCoefficient(w[2] + 1)
      && ToFirstCoefficient(w[3]) <= p.dT2 < ToFirstCoefficient(w[3] + 1)
      && ToTemperature(w[5] as real + 1.0) < p.tb <= ToTemperature(w[5] as real)
  {
  }

  /** The corrected check admits a room-temperature Tb. */
  lemma CorrectedAcceptsRoomTemperature(vRef: int)
    ensures CorrectionWords(CorrectionFactors(SlopeMin, SlopeMin, 0.0, 0.0, 25.0), vRef).Some?
  {
  }
}

=== FILE: utf8.dfy ===
/** Strict UTF-8, as `bytes.decode("utf-8")` applies it: one to four bytes
    per scalar value, no overlong forms, no surrogates, nothing above
    U+10FFFF. */
module Utf8 {
  import opened Wrappers
  import opened Bytes

  predicate IsContinuation(b: Byte) {
    0x80 <= b < 0xC0
  }

  predicate IsScalar(cp: int) {
    0 <= cp < 0xD800 || 0xE000 <= cp < 0x11_0000
  }

  /** The scalar value the sequence starts with and the number of bytes that
      encode it, or `None` when no well-formed sequence starts there. */
  function FirstChar(s: seq<Byte>): (r: Option<(char, nat)>)
    requires |s| > 0
    ensures r.Some? ==> 1 <= r.value.1 <= 4 && r.value.1 <= |s|
    ensures r.Some? && r.value.1 == 1 <==> s[0] < 0x80
    ensures r.Some? ==> (r.value.0 as int < 0x80 <==> r.value.1 == 1)
  {
    var b0: int := s[0];
    if b0 < 0x80 then Some((b0 as char, 1))
    else if 0xC2 <= b0 <= 0xDF then
      if |s| >= 2 && IsContinuation(s[1]) then
        Some((((b0 - 0xC0) * 64 + (s[1] as int - 0x80)) as char, 2))
      else None
    else if 0xE0 <= b0 <= 0xEF then
      if |s| >= 3 && IsContinuation(s[1]) && IsContinuation(s[2])
         && (b0 == 0xE0 ==> s[1] >= 0xA0) && (b0 == 0xED ==> s[1] < 0xA0) then
        Some((((b0 - 0xE0) * 4096 + (s[1] as int - 0x80) * 64 + (s[2] as int - 0x80)) as char, 3))
      else None
    else if 0xF0 <= b0 <= 0xF4 then
      if |s| >= 4 && IsContinuation(s[1]) && IsContinuation(s[2]) && IsContinuation(s[3])
         && (b0 == 0xF0 ==> s[1] >= 0x90) && (b0 == 0xF4 ==> s[1] < 0x90) then
        Some((((b0 - 0xF0) * 262144 + (s[1] as int - 0x80) * 4096 + (s[2] as int - 0x80) * 64 + (s[3] as int - 0x80)) as char, 4))
      else None
    else None
  }

  /** `bytes.decode("utf-8")`, `None` standing for the `UnicodeDecodeError`. */
  function Decode(s: seq<Byte>): (r: Option<string>)
    ensures r.Some? ==> |r.value| <= |s|
    ensures r.Some? && s != [] ==> |r.value| >= 1 && FirstChar(s).Some? && r.value[0] == FirstChar(s).value.0
    decreases |s|
  {
    if s == [] then Some([])
    else match FirstChar(s)
      case None => None
      case Some((c, n)) =>
        match Decode(s[n..])
        case None => None
        case Some(t) => Some([c] + t)
  }

  /** `str.encode("utf-8")` of one character. */
  function EncodeChar(c: char): (s: seq<Byte>)
    ensures 1 <= |s| <= 4
  {
    var cp := c as int;
    if cp < 0x80 then [cp]
    else if cp < 0x800 then [0xC0 + cp / 64, 0x80 + cp % 64]
    else if cp < 0x1_0000 then [0xE0 + cp / 4096, 0x80 + (cp / 64) % 64, 0x80 + cp % 64]
    else [0xF0 + cp / 262144, 0x80 + (cp / 4096) % 64, 0x80 + (cp / 64) % 64, 0x80 + cp % 64]
  }

  function Encode(t: string): seq<Byte> {
    if t == [] then [] else EncodeChar(t[0]) + Encode(t[1..])
  }

  lemma TwoByteDigits(cp: int)
    requires 0x80 <= cp < 0x800
    ensures 0xC2 <= 0xC0 + cp / 64 <= 0xDF
    ensures (cp / 64) * 64 + cp % 64 == cp
  {
  }

  lemma ThreeByteDigits(cp: int)
    requires 0x800 <= cp < 0x1_0000
    ensures 0xE0 <= 0xE0 + cp / 4096 <= 0xEF
    ensures cp / 4096 == 0 ==> (cp / 64) % 64 >= 0x20
    ensures cp / 4096 == 0xD && cp < 0xD800 ==> (cp / 64) % 64 < 0x20
    ensures (cp / 4096) * 4096 + ((cp / 64) % 64) * 64 + cp % 64 == cp
  {
  }

  lemma FourByteDigits(cp: int)
    requires 0x1_0000 <= cp < 0x11_0000
    ensures 0xF0 <= 0xF0 + cp / 262144 <= 0xF4
    ensures cp / 262144 == 0 ==> (cp / 4096) % 64 >= 0x10
    ensures cp / 262144 == 4 ==> (cp / 4096) % 64 < 0x10
    ensures (cp / 262144) * 262144 + ((cp / 4096) % 64) * 4096 + ((cp / 64) % 64) * 64 + cp % 64 == cp
  {
  }

  lemma FirstCharOfEncoding(c: char, rest: seq<Byte>)
    ensures FirstChar(EncodeChar(c) + rest) == Some((c, |EncodeChar(c)|))
  {
    var s := EncodeChar(c) + rest;
    var cp := c as int;
    if cp < 0x80 {
    } else if cp < 0x800 {
      TwoByteDigits(cp);
      assert s[0] == 0xC0 + cp / 64 && s[1] == 0x80 + cp % 64;
    } else if cp < 0x1_0000 {
      ThreeByteDigits(cp);
      assert s[0] == 0xE0 + cp / 4096 && s[1] == 0x80 + (cp / 64) % 64 && s[2] == 0x80 + cp % 64;
    } else {
      FourByteDigits(cp);
      assert s[0] == 0xF0 + cp / 262144 && s[1] == 0x80 + (cp / 4096) % 64;
      assert s[2] == 0x80 + (cp / 64) % 64 && s[3] == 0x80 + cp % 64;
    }
  }

  /** Every string survives being encoded and decoded. */
  lemma {:induction false} DecodeEncode(t: string)
    ensures Decode(Encode(t)) == Some(t)
  {
    if t != [] {
      var e := EncodeChar(t[0]);
      FirstCharOfEncoding(t[0], Encode(t[1..]));
      assert Encode(t) == e + Encode(t[1..]);
      assert (e + Encode(t[1..]))[|e|..] == Encode(t[1..]);
      DecodeEncode(t[1..]);
      assert [t[0]] + t[1..] == t;
    }
  }

  /** `(q * 64 + r) // 64 == q` and `(q * 64 + r) % 64 == r` for a digit r. */
  lemma SplitSix(q: int, r: int)
    requires 0 <= q && 0 <= r < 64
    ensures (q * 64 + r) / 64 == q && (q * 64 + r) % 64 == r
  {
  }

  lemma EncodeTwo(b0: Byte, b1: Byte)
    requires 0xC2 <= b0 <= 0xDF && IsContinuation(b1)
    ensures EncodeChar(((b0 - 0xC0) * 64 + (b1 - 0x80)) as char) == [b0, b1]
  {
    SplitSix(b0 - 0xC0, b1 - 0x80);
  }

  lemma EncodeThree(b0: Byte, b1: Byte, b2: Byte)
    requires 0xE0 <= b0 <= 0xEF && IsContinuation(b1) && IsContinuation(b2)
    requires b0 == 0xE0 ==> b1 >= 0xA0
    requires b0 == 0xED ==> b1 < 0xA0
    ensures EncodeChar(((b0 - 0xE0) * 4096 + (b1 - 0x80) * 64 + (b2 - 0x80)) as char) == [b0, b1, b2]
  {
    var cp := (b0 - 0xE0) * 4096 + (b1 - 0x80) * 64 + (b2 - 0x80);
    assert cp == ((b0 - 0xE0) * 64 + (b1 - 0x80)) * 64 + (b2 - 0x80);
    SplitSix((b0 - 0xE0) * 64 + (b1 - 0x80), b2 - 0x80);
    SplitSix(b0 - 0xE0, b1 - 0x80);
    assert cp / 4096 == cp / 64 / 64;
  }

  lemma EncodeFour(b0: Byte, b1: Byte, b2: Byte, b3: Byte)
    requires 0xF0 <= b0 <= 0xF4 && IsContinuation(b1) && IsContinuation(b2) && IsContinuation(b3)
    requires b0 == 0xF0 ==> b1 >= 0x90
    requires b0 == 0xF4 ==> b1 < 0x90
    ensures EncodeChar(((b0 - 0xF0) * 262144 + (b1 - 0x80) * 4096 + (b2 - 0x80) * 64 + (b3 - 0x80)) as char)
            == [b0, b1, b2, b3]
  {
    var cp := (b0 - 0xF0) * 262144 + (b1 - 0x80) * 4096 + (b2 - 0x80) * 64 + (b3 - 0x80);
    var hi := (b0 - 0xF0) * 64 + (b1 - 0x80);
    assert cp == (hi * 64 + (b2 - 0x80)) * 64 + (b3 - 0x80);
    SplitSix(hi * 64 + (b2 - 0x80), b3 - 0x80);
    SplitSix(hi, b2 - 0x80);
    SplitSix(b0 - 0xF0, b1 - 0x80);
    assert cp / 4096 == cp / 64 / 64;
    assert cp / 262144 == cp / 64 / 64 / 64;
  }

  /** The scalar value a well-formed sequence decodes to is encoded by
      exactly that sequence: the decoder accepts no overlong form. */
  lemma EncodeFirstChar(s: seq<Byte>)
    requires |s| > 0 && FirstChar(s).Some?
    ensures EncodeChar(FirstChar(s).value.0) == s[.. FirstChar(s).value.1]
  {
    if s[0] < 0x80 {
      assert s[..1] == [s[0]];
    } else if s[0] <= 0xDF {
      EncodeTwo(s[0], s[1]);
      assert s[..2] == [s[0], s[1]];
    } else if s[0] <= 0xEF {
      EncodeThree(s[0], s[1], s[2]);
      assert s[..3] == [s[0], s[1], s[2]];
    } else {
      EncodeFour(s[0], s[1], s[2], s[3]);
      assert s[..4] == [s[0], s[1], s[2], s[3]];
    }
  }

  /** Whatever the decoder accepts is the encoding of what it returns. */
  lemma {:induction false} EncodeDecode(s: seq<Byte>)
    requires Decode(s).Some?
    ensures Encode(Decode(s).value) == s
    decreases |s|
  {
    if s != [] {
      DecodeStep(s);
      var (c, n) := FirstChar(s).value;
      EncodeFirstChar(s);
      EncodeDecode(s[n..]);
      EncodeCons(c, Decode(s[n..]).value);
      assert s == s[.. n] + s[n..];
    }
  }

  /** An accepted non-empty input is its first character followed by the
      decoding of the rest. */
  lemma DecodeStep(s: seq<Byte>)
    requires s != [] && Decode(s).Some?
    ensures FirstChar(s).Some? && Decode(s[FirstChar(s).value.1 ..]).Some?
    ensures Decode(s).value == [FirstChar(s).value.0] + Decode(s[FirstChar(s).value.1 ..]).value
  {
  }

  lemma EncodeCons(c: char, t: string)
    ensures Encode([c] + t) == EncodeChar(c) + Encode(t)
  {
    assert ([c] + t)[0] == c && ([c] + t)[1..] == t;
  }

  /** `bytes_to_string` returns `t` exactly when the bytes are the UTF-8
      encoding of `t`; on any other bytes it returns None. */
  lemma DecodeExactlyEncodings(s: seq<Byte>, t: string)
    ensures Decode(s) == Some(t) <==> Encode(t) == s
  {
    DecodeEncode(t);
    if Decode(s).Some? {
      EncodeDecode(s);
    }
  }

  /** Overlong forms, surrogates, values above U+10FFFF, bytes that never
      start a sequence, truncated sequences and stray continuation bytes are
      all refused. */
  lemma MalformedRejected()
    ensures Decode([0xC0, 0x80]) == None
    ensures Decode([0xE0, 0x80, 0x80]) == None
    ensures Decode([0xED, 0xA0, 0x80]) == None
    ensures Decode([0xF4, 0x90, 0x80, 0x80]) == None
    ensures Decode([0xFF]) == None
    ensures Decode([0xC3]) == None
    ensures Decode([0x80]) == None
  {
  }

  /** On ASCII bytes the UTF-8 and the ASCII decoders agree. */
  lemma {:induction false} DecodeAscii(s: seq<Byte>)
    requires IsAscii(s)
    ensures Decode(s) == Some(AsciiText(s))
  {
    if s != [] {
      assert IsAscii(s[1..]);
      DecodeAscii(s[1..]);
      assert AsciiText(s) == [s[0] as char] + AsciiText(s[1..]);
    }
  }
}

=== FILE: wrappers.dfy ===
/** Option and Result, the failure-carrying values used throughout the model
    in place of Python's None returns and raised exceptions. */
module Wrappers {

  datatype Option<+T> = None | Some(value: T)

  datatype Result<+T, +E> = Success(value: T) | Failure(error: E)
}
